=== FILE: README.md ===
# XmlFileIngestion, modelled in Dafny

XmlFileIngestion turns a manifest of markup documents held in object storage
into five flat relations. One run has three phases, each over a directory:

1. **Download**: every manifest row whose asset file is missing is fetched and
   written to the asset directory under its asset id.
2. **Normalise**: every asset file whose JSON file is missing is parsed
   tolerantly. The normaliser then:
   - drops every white-space-only text node;
   - stamps every element with a fresh `__nodeid`, its `__xpath` and a
     `__hastext` flag;
   - drops every node that is not an element.

   A strict re-parse of the result either accepts it, and the tree is written
   to the JSON directory, or rejects it, and the asset's name is reported.
3. **Decompose**: `files.csv`, `nodes.csv`, `attributes.csv`,
   `nodeAttributes.csv` and `nodeParent.csv` are written in this order. Each
   is written only when it does not exist yet.

The model is pure and functional. A document is a sequence of `Markup.Node`
trees (elements with an attribute map, text, comments, other nodes). A
directory is an append-only `Stores.Store` whose entries are in write order.
The model takes this to be both the order in which the directory is listed and
the order in which each phase visits its files. Every write is skip-if-exists:
the download phase and the five CSV files go through `Stores.PutIfAbsent`, and
`Pipeline.NormalizeAll` tests the name itself before it appends. The id
generator is a counter that threads through the whole run and is never reset;
it stands for `Guid.NewGuid`. `nodeAttributes.csv` first keeps only the
elements that have a non-reserved attribute, then takes their non-reserved
attributes; the first filter removes nothing the second would keep, so the
model has only the second. The collaborators a run calls are parameters of
`Pipeline.Env`: object fetching, the tolerant parser, the path syntax and the
strict re-parse.

Modules, one per file, in dependency order:

- `Wrappers`: `Option`.
- `Markup`: trees, document order, positions.
- `NodeIds`: decimal id texts and their injectivity.
- `Normalize`: strip, annotate, clean, and the strict-parse guard.
- `Records`: the row shapes.
- `Stores`: directories and skip-if-exists writes.
- `Decompose`: the five relations per document and over the JSON directory.
- `Pipeline`: the three phases, one run, the directory invariant, idempotence.
- `Scenario`: the document `<a><b x="1"/><b x="2"/>text</a>` end to end.

Where the code and its description differ, the model follows the code:

- An asset whose tree the strict re-parse rejects gets no JSON file. Every
  later run therefore normalises it again and draws new ids for it. A second
  run writes nothing only if the strict re-parse does not depend on the id
  values it sees (`Pipeline.IdBlind`). When a verdict depends on those values
  (a tree that is rejected for one set of ids and accepted for another), the
  second run does write that tree.

## Model

| member | source | states |
|---|---|---|
| NodeIds.ParseIdText | src/XmlFileIngestion/Program.cs:190 | the text of an id reads back as the counter value it was made from |
| NodeIds.IdTextInjective | src/XmlFileIngestion/Program.cs:190 | different counter values give different id texts, as fresh Guids differ |
| Normalize.StripBlankText | src/XmlFileIngestion/Program.cs:141-155 | after removal no text node at any depth is white space only (XPath normalize-space is empty) |
| Normalize.StripNoBlank | src/XmlFileIngestion/Program.cs:141-155 | a forest with no white-space-only text at any depth is left exactly as it is: removal touches nothing else |
| Normalize.StripKeepsNodes | src/XmlFileIngestion/Program.cs:141-155 | at every level the result is the level's nodes other than white-space-only text, in their order; elements keep their tag and attributes with their children stripped in turn, and every other text, comment or other node is kept unchanged |
| Normalize.StripKeepsElements | src/XmlFileIngestion/Program.cs:141-155 | removal keeps every element in document order, with its tag and attributes |
| Normalize.StripTextChild | src/XmlFileIngestion/Program.cs:192 | after removal an element has a text child exactly when it had a text child that is not white space only; comments do not count |
| Normalize.Stamp | src/XmlFileIngestion/Program.cs:190-192 | the three reserved attributes get the id, the path and "True"/"False"; a user attribute of the same name is overwritten; every other attribute is kept |
| Normalize.Annotate | src/XmlFileIngestion/Program.cs:185-193 | the walk draws exactly one id per element at any depth, and leaves every top-level node that is not an element as it was. Apart from attribute maps, the result is the input: every node keeps its children and its place in the tree |
| Normalize.AnnotateStamps | src/XmlFileIngestion/Program.cs:185-193 | the i-th element in document order is stamped with id number next + i, the path of its own position, and its own text-child flag |
| Normalize.Clean | src/XmlFileIngestion/Program.cs:195-201 | the result holds only elements, at every depth, one per top-level element of the input |
| Normalize.CleanKeepsRoots | src/XmlFileIngestion/Program.cs:195-201 | every kept element has its tag and attribute map, and its element children in their original relative order |
| Normalize.CleanKeepsElements | src/XmlFileIngestion/Program.cs:195-201 | removal keeps the document-order list of elements with tags and attributes |
| Normalize.CleanElementOnly | src/XmlFileIngestion/Program.cs:195-201 | removing non-elements from an element-only tree changes nothing |
| Normalize.Candidate | src/XmlFileIngestion/Program.cs:183-201 | the tree handed to the strict re-parse is element-only, has as many top-level elements as the parsed document, and moved the counter by its element count |
| Normalize.CandidateShape | src/XmlFileIngestion/Program.cs:183-201 | apart from attributes, the tree handed to the strict re-parse is the parsed document with blank text removed and then every non-element removed; annotation moves no node and drops no child |
| Normalize.NormalizeDocument | src/XmlFileIngestion/Program.cs:203-213 | a tree is kept exactly when the strict re-parse accepts it; ids are drawn either way |
| Normalize.NormalizedElements | src/XmlFileIngestion/Program.cs:183-201 | the kept tree has the parsed document's elements in document order. Each has its tag, its attributes plus id next + i, the path of its position in the white-space-stripped document, and has-text true exactly when it has a text child that is not white space only |
| Normalize.NormalizedIdsDistinct | src/XmlFileIngestion/Program.cs:185-193 | every element of a normalised tree carries all three reserved attributes, and no two carry the same id |
| Stores.PutIfAbsent | src/XmlFileIngestion/Program.cs:97-100 | writes exactly when the name is absent. It never replaces or reorders an entry, changes only what that name holds, and keeps names unique |
| Stores.PutAllIfAbsent | src/XmlFileIngestion/Program.cs:224-231 | a sequence of skip-if-exists writes only appends, and when every name is present it changes nothing |
| Stores.PutAllIfAbsentContents | src/XmlFileIngestion/Program.cs:224-231 | after the writes each name holds what it held already, or else its new content |
| Decompose.Extension | src/XmlFileIngestion/Program.cs:260 | the extension is non-empty exactly when the last '.' of the path comes after its last '/' and is not its final character; it is then the suffix from that '.', which holds no other '.' and no '/' |
| Decompose.FilesTable | src/XmlFileIngestion/Program.cs:248-262 | one files row per asset file, with its asset id, bucket and key and the lower-cased extension of the key |
| Decompose.FlagTextParses | src/XmlFileIngestion/Program.cs:299 | bool.Parse of the text bool.ToString wrote gives back the original flag |
| Decompose.NodeRowsOfCandidate | src/XmlFileIngestion/Program.cs:290-300 | the nodes rows of a normalised document, one per parsed element in document order. The i-th row has id number next + i, the element's tag, and the path of its position in the white-space-stripped document. HasText is true exactly when the element has a text child that is not white space only |
| Decompose.NodeAttributeRowsMembers | src/XmlFileIngestion/Program.cs:373-384 | a row is in nodeAttributes exactly when it is (id, name, value) of a non-reserved attribute of one of the elements |
| Decompose.NoReservedAttributeRows | src/XmlFileIngestion/Program.cs:373-384 | no nodeAttributes row has a name starting with "__", user attributes included |
| Decompose.NodeAttributeRowCount | src/XmlFileIngestion/Program.cs:373-384 | nodeAttributes has as many rows, with multiplicity, as there are non-reserved attribute occurrences |
| Decompose.AddElement | src/XmlFileIngestion/Program.cs:329-337 | the dictionary's names grow by exactly the element's non-reserved attribute names |
| Decompose.CollectPairs | src/XmlFileIngestion/Program.cs:317-338 | filling the dictionary from elements adds exactly their non-reserved (name, value) pairs |
| Decompose.VocabularyIsDedup | src/XmlFileIngestion/Program.cs:315-349 | the attributes rows of a document are exactly the distinct (name, value) pairs of its nodeAttributes rows |
| Decompose.ParentRowCount | src/XmlFileIngestion/Program.cs:411-418 | the nodeParent rows of a document number its elements minus its top-level elements |
| Decompose.ParentRowsAreFamilies | src/XmlFileIngestion/Program.cs:411-418 | the nodeParent rows of a document are, up to order, the pairs (child id, parent id) of every element and each of its element children |
| Decompose.ParentRowsReferToElements | src/XmlFileIngestion/Program.cs:411-418 | both ids of every nodeParent row are ids of elements of the document |
| Decompose.NodesTableCount | src/XmlFileIngestion/Program.cs:281-301 | nodes.csv has exactly one row per element of every JSON file |
| Decompose.NodesTableAssets | src/XmlFileIngestion/Program.cs:284 | every nodes.csv row names a JSON file, so an asset without one contributes no row |
| Decompose.NodeParentTableCount | src/XmlFileIngestion/Program.cs:405-421 | nodeParent.csv has the corpus's elements minus its top-level elements as rows |
| Decompose.AttributesTableIsDedup | src/XmlFileIngestion/Program.cs:315-349 | attributes.csv is exactly the set of distinct (name, value) pairs of nodeAttributes.csv |
| Pipeline.Download | src/XmlFileIngestion/Program.cs:87-115 | the download only appends to the asset directory. Afterwards the directory names every manifest asset, and each new file is a manifest row with the fetched text |
| Pipeline.DownloadNamedById | src/XmlFileIngestion/Program.cs:76-80 | every asset file is named by the asset id it holds |
| Pipeline.DownloadStable | src/XmlFileIngestion/Program.cs:97-100 | when every manifest asset already has a file, the download writes nothing |
| Pipeline.NormalizeAll | src/XmlFileIngestion/Program.cs:157-221 | normalisation only appends to the JSON directory, keeps its names unique, and never moves the counter back |
| Pipeline.NormalizeAllNames | src/XmlFileIngestion/Program.cs:165-166 | JSON files are written only under names of asset files |
| Pipeline.NormalizeAllSources | src/XmlFileIngestion/Program.cs:172-217 | every new JSON file is the accepted normalised tree of the asset file of the same name |
| Pipeline.NormalizeAllCovers | src/XmlFileIngestion/Program.cs:163-217 | afterwards every asset file has a JSON file, or was rejected by the strict re-parse and reported; a reported name had no JSON file before |
| Pipeline.NormalizeAllFailedUnstored | src/XmlFileIngestion/Program.cs:208-213 | a reported asset gets no JSON file |
| Pipeline.NormalizeAllFresh | src/XmlFileIngestion/Program.cs:190 | across the JSON directory no id occurs twice, and none equals an id the counter has yet to draw |
| Pipeline.NormalizeAllStable | src/XmlFileIngestion/Program.cs:168-171 | when every asset file has a JSON file or is rejected whatever its ids, normalisation writes nothing |
| Pipeline.NormalizeAllPersisted | src/XmlFileIngestion/Program.cs:195-217 | every JSON file holds an element-only tree whose elements all carry the reserved attributes |
| Pipeline.PersistedReadable | src/XmlFileIngestion/Program.cs:297-299 | every reserved attribute a decomposer reads from a JSON file is there, and has-text is a text bool.Parse accepts |
| Pipeline.CandidateIds | src/XmlFileIngestion/Program.cs:190 | the elements of a normalised tree carry the ids next, next + 1, ... in document order |
| Pipeline.FreshAppend | src/XmlFileIngestion/Program.cs:217 | storing a tree stamped from the counter keeps the ids of the JSON directory fresh |
| Pipeline.NodeIdsUnique | src/XmlFileIngestion/Program.cs:290-300 | no node id occurs twice in the corpus-wide nodes relation |
| Pipeline.EmptyValid | src/XmlFileIngestion/Program.cs:52-59 | the freshly created empty directories satisfy the directory invariant |
| Pipeline.WriteTables | src/XmlFileIngestion/Program.cs:224-231 | the CSV directory afterwards has all five files. Nothing is replaced, and if all five existed, nothing is written |
| Pipeline.WriteTablesContents | src/XmlFileIngestion/Program.cs:233-240 | each of the five files holds what it held before, or else its relation computed from the asset and JSON directories |
| Pipeline.Run | src/XmlFileIngestion/Program.cs:40-50 | a run only appends to the three directories. Afterwards every manifest asset has an asset file, all five CSV files exist, and the JSON directory stays readable |
| Pipeline.RunKeepsValid | src/XmlFileIngestion/Program.cs:40-50 | a run keeps the directory invariant: unique names, asset files named by id, JSON files only for assets, corpus-wide fresh ids |
| Pipeline.RunReportsFailures | src/XmlFileIngestion/Program.cs:203-213 | every asset file gets a JSON file or is reported. A reported asset has no JSON file. It has a row in the files relation computed from the asset directory, and no row in the nodes relation computed from the JSON directory |
| Pipeline.RunWritesFreshTables | src/XmlFileIngestion/Program.cs:233-303 | after a run, files.csv and nodes.csv hold the relations computed from the run's asset and JSON directories if they did not exist before; otherwise they keep their old content |
| Pipeline.BlindRejected | src/XmlFileIngestion/Program.cs:206 | a re-parse that ignores the id values rejects a tree it rejected once, whatever ids the tree carries |
| Pipeline.SecondRunChangesNothing | src/XmlFileIngestion/Program.cs:40-50 | a second run with the same manifest leaves the asset, JSON and CSV directories exactly as the first run left them |
| Scenario.ScenarioNormalized | src/XmlFileIngestion/Program.cs:183-201 | `<a><b x="1"/><b x="2"/>text</a>` normalises to a (has-text True) over two b's (has-text False), with three ids drawn in document order |
| Scenario.ScenarioNodes | src/XmlFileIngestion/Program.cs:290-300 | that document gives three nodes rows: a with has-text true, then two b's with has-text false |
| Scenario.ScenarioParents | src/XmlFileIngestion/Program.cs:411-418 | that document gives two nodeParent rows, each b pointing at a |
| Scenario.ScenarioNodeAttributes | src/XmlFileIngestion/Program.cs:373-384 | that document gives exactly the nodeAttributes rows x=1 and x=2 of the two b's |
| Scenario.ScenarioVocabulary | src/XmlFileIngestion/Program.cs:315-349 | that document gives exactly the attributes rows (x, 1) and (x, 2) |

## Left out

- Object storage, manifest reading and all file reads and writes
  (Program.cs:63-74, 92-111) are not modelled. The manifest is a sequence of
  rows, the directories are stores, and fetching is `Env.fetch`. A fetch that
  throws aborts the source's run; the model has no such failure.
- Order of visiting is not modelled. The download and normalisation phases
  drain a ConcurrentBag with ten tasks (Program.cs:89-91, 157-163).
  files.csv and nodes.csv drain a ConcurrentBag from a single thread
  (Program.cs:248-249, 281-282). attributes.csv, nodeAttributes.csv and
  nodeParent.csv run a foreach over Directory.EnumerateFiles, whose order
  depends on the file system. In the model every phase is sequential and
  visits files and manifest rows in write order. The cross-file row order of
  files.csv, nodes.csv, nodeAttributes.csv and nodeParent.csv is therefore not
  the source's. So is which of two equal manifest rows is fetched.
  `Decompose.FilesTable` ties its i-th row to the i-th asset file only in this
  modelled order.
- The tolerant HTML parse and the Sgml strict re-parse are foreign parsers.
  The parse is `Env.parse` and the strict re-parse is the oracle `Env.accepts`,
  applied to the cleaned tree.
- The JSON round trip (SerializeXNode / DeserializeXNode) and CSV formatting
  are codecs. A JSON file holds the cleaned tree itself, and rows are records.
  Json.NET's conversion gathers same-named sibling elements into one array, so
  the tree read back at Program.cs:288 and 409 can have its siblings reordered
  (`<a><b/><c/><b/></a>` comes back as `<a><b/><b/><c/></a>`). The row order
  within one file of nodes.csv and nodeParent.csv is therefore not document
  order in the source: `Decompose.NodeRowsOfCandidate`'s "i-th row" holds only
  under this abstraction. The contents of the rows are not affected.
- The HtmlAgilityPack XPath string format is the uninterpreted `Env.xpath`.
  It is applied to the white-space-stripped document and the element's
  position in it.
- Guid.NewGuid is a counter whose decimal text is the id. Guid.Parse of an id
  is the identity, and a JSON file with an id that is not a Guid is not
  modelled.
- Base64 and UTF-8 transcoding of asset content (Program.cs:82-85, 120-123):
  an asset holds the fetched text itself.
- ToLower is ASCII only, not culture-sensitive.
- Decompose.IsReserved: is an ordinal prefix test for "__". The source's
  `StartsWith("__")` (Program.cs:327, 375, 377) is culture-sensitive. With
  ICU, for example, a name with a leading soft hyphen before "__" also
  counts as reserved; the model does not treat it so.
- Normalize.Stamp: overwrites only an attribute spelled exactly `__nodeid`,
  `__xpath` or `__hastext`. HtmlAgilityPack's SetAttributeValue
  (Program.cs:190-192) also matches a user attribute whose name differs only
  in letter case, such as `__NodeID`. It sets that attribute's value and keeps
  its spelling, so no exact-case `__nodeid` exists. The decomposers then throw
  at `Guid.Parse(x.Attribute("__nodeid").Value)` (Program.cs:297, 380, 416).
  The model instead adds the reserved name beside the user's attribute, and
  decomposition goes on.
- Path.GetExtension uses '/' as the only separator; '\' and ':' (Windows) are
  not separators here.
- The model's has-text test (`Decompose.IsFlagText` and the nodes row) takes
  "true"/"false" in any letter case and does not trim surrounding white space.
  .NET's bool.Parse does trim. The difference is harmless: the stored text is
  always what bool.ToString wrote.
- Decompose.NodeRowOf: takes the element's tag whole, and
  `Decompose.UserKeys` takes attribute names whole. The source reads every
  name through XName.LocalName (Program.cs:296, 327, 331, 333, 336, 375, 377,
  381), which drops a namespace prefix. For a namespaced element or attribute
  such as `xml:lang`, the source writes `lang` into nodes, attributes and
  nodeAttributes, and applies its "__" filter and its dictionary keys to that
  local part. The model writes the full name. Namespaces are not modelled.
- A crash in the middle of a write, which would leave a truncated file that
  later runs skip, is not modelled: every write is whole.
- Pipeline.Run: requires every JSON file already in the directory to hold an
  element-only tree whose every element carries the three reserved attributes
  (`Pipeline.Persisted`), as the normaliser writes them. That is more than the
  readability the decomposers need; a foreign file that would make them throw
  is excluded rather than modelled.
- The decomposers throw on an element without the reserved attributes they
  read. `Pipeline.WriteTables` instead requires them (`StoreNodesReadable`,
  `StoreAttributesReadable`, `StoreParentsReadable`). Every tree the
  normaliser writes meets them (`Pipeline.PersistedReadable`).
- The order of attributes within an element is not modelled (an attribute map).
  The nodeAttributes relation is a multiset, so neither the row order within
  an element nor the document order across elements is stated.
- Pipeline.SecondRunChangesNothing: says nothing about the second run's
  failure report, and assumes a strict re-parse that ignores id values
  (`Pipeline.IdBlind`).
- Decompose.ParentRowsAreFamilies: states the nodeParent rows up to order (as a
  multiset). Their document order is stated only by the definition.
- Pipeline.NormalizeAll: the failure report goes to the console in the
  source. Here it is the `failed` sequence, in processing order.

=== FILE: decompose.dfy ===
/**
 The relational decomposer of the CSV phase: the five projections from the
 downloaded assets and the persisted element trees to the rows of files.csv,
 nodes.csv, attributes.csv, nodeAttributes.csv and nodeParent.csv.
 */
module Decompose {
  import opened Wrappers
  import opened Markup
  import NodeIds
  import opened Normalize
  import opened Records
  import opened Stores

  /** The decomposer's filter for synthetic attributes: the name starts with "__". */
  predicate IsReserved(name: string) {
    |name| >= 2 && name[..2] == "__"
  }

  /** The attribute names of a node that reach the attribute relations. */
  function UserKeys(attrs: map<string, string>): (ks: set<string>)
    ensures forall k :: k in ks <==> k in attrs && !IsReserved(k)
  {
    set k | k in attrs && !IsReserved(k)
  }

  function LowerChar(c: char): char {
    if 'A' <= c <= 'Z' then (c as int + 32) as char else c
  }

  /** ToLower on the ASCII letters; every other character is kept. */
  function LowerAscii(s: string): (r: string)
    ensures |r| == |s| && forall i :: 0 <= i < |s| ==> r[i] == LowerChar(s[i])
  {
    seq(|s|, i requires 0 <= i < |s| => LowerChar(s[i]))
  }

  // ---------------------------------------------------------------------------
  // files.csv

  /** The characters Path.GetExtension stops at: the extension separator and the directory separator. */
  predicate NoDotOrSeparator(s: string) {
    forall k :: 0 <= k < |s| ==> s[k] != '.' && s[k] != '/'
  }

  /**
   Path.GetExtension: the text from the last '.' of the file name to the end,
   leading '.' included; empty when the file name has no '.', or when the '.'
   is the last character.
   */
  function Extension(path: string): (ext: string)
    ensures ext != "" <==> exists j :: 0 <= j < |path| - 1 && path[j] == '.' && NoDotOrSeparator(path[j + 1..])
    ensures ext != "" ==>
      2 <= |ext| <= |path| && ext[0] == '.' && ext == path[|path| - |ext|..] && NoDotOrSeparator(ext[1..])
  {
    ExtensionBefore(path, |path|)
  }

  /** Scans path[..i] from its end; path[i..] has already been found free of '.' and '/'. */
  function ExtensionBefore(path: string, i: nat): (ext: string)
    requires i <= |path| && NoDotOrSeparator(path[i..])
    ensures ext != "" <==> exists j :: 0 <= j < i && j < |path| - 1 && path[j] == '.' && NoDotOrSeparator(path[j + 1..])
    ensures ext != "" ==>
      2 <= |ext| <= |path| && ext[0] == '.' && ext == path[|path| - |ext|..] && NoDotOrSeparator(ext[1..])
    decreases i
  {
    if i == 0 then ""
    else if path[i - 1] == '.' then
      if i == |path| then "" else path[i - 1..]
    else if path[i - 1] == '/' then ""
    else
      assert path[i - 1..] == [path[i - 1]] + path[i..];
      ExtensionBefore(path, i - 1)
  }

  /** The files.csv row of a downloaded asset; the file type is the lower-cased extension of its key. */
  function FileRowOf(a: Asset): FileRow {
    FileRow(a.assetId, LowerAscii(Extension(a.key)), a.bucketName, a.key)
  }

  /** files.csv: one row per downloaded asset, in listing order, read from the stored asset record. */
  function FilesTable(assets: Store<Asset>): (rows: seq<FileRow>)
    ensures |rows| == |assets|
    ensures forall i :: 0 <= i < |assets| ==>
      rows[i].assetId == assets[i].content.assetId &&
      rows[i].bucketName == assets[i].content.bucketName &&
      rows[i].key == assets[i].content.key &&
      rows[i].fileType == LowerAscii(Extension(assets[i].content.key))
  {
    seq(|assets|, i requires 0 <= i < |assets| => FileRowOf(assets[i].content))
  }

  // ---------------------------------------------------------------------------
  // nodes.csv

  /** bool.Parse accepts the two texts regardless of letter case. */
  predicate IsFlagText(s: string) {
    LowerAscii(s) == "true" || LowerAscii(s) == "false"
  }

  /** What nodes.csv reads from an element: all three reserved attributes, with a parseable has-text. */
  predicate NodeReadable(e: Node) {
    e.Element? && NodeIdKey in e.attrs && XPathKey in e.attrs && HasTextKey in e.attrs &&
    IsFlagText(e.attrs[HasTextKey])
  }

  function NodeRowOf(assetId: string, e: Node): NodeRow
    requires NodeReadable(e)
  {
    NodeRow(assetId, e.attrs[NodeIdKey], e.tag, e.attrs[XPathKey], LowerAscii(e.attrs[HasTextKey]) == "true")
  }

  predicate NodesReadable(f: seq<Node>) {
    forall i :: 0 <= i < |Elements(f)| ==> NodeReadable(Elements(f)[i])
  }

  /** The nodes.csv rows of one document: one per element, in document order. */
  function NodeRows(assetId: string, f: seq<Node>): (rows: seq<NodeRow>)
    requires NodesReadable(f)
    ensures |rows| == |Elements(f)|
    ensures forall i :: 0 <= i < |rows| ==> rows[i] == NodeRowOf(assetId, Elements(f)[i])
  {
    var es := Elements(f);
    seq(|es|, i requires 0 <= i < |es| && NodeReadable(es[i]) => NodeRowOf(assetId, es[i]))
  }

  /** bool.Parse reads back the text bool.ToString wrote. */
  lemma FlagTextParses(b: bool)
    ensures IsFlagText(FlagText(b))
    ensures LowerAscii(FlagText(b)) == "true" <==> b
  {
    assert LowerAscii("True") == "true";
    assert LowerAscii("False") == "false";
  }

  /**
   The nodes.csv rows of a normalised document, stated against the parsed document:
   the i-th row carries id number next + i, the tag of the i-th parsed element, the
   path of its position in the white-space-stripped document, and HasText true
   exactly when the element has a text child that is not white space only.
   */
  lemma NodeRowsOfCandidate(assetId: string, parsed: seq<Node>, xpath: PathOf, next: nat)
    ensures NodesReadable(Candidate(parsed, xpath, next).0)
    ensures |Visits(StripBlankText(parsed), [], 0)| == |Elements(parsed)|
    ensures |NodeRows(assetId, Candidate(parsed, xpath, next).0)| == |Elements(parsed)|
    ensures forall i :: 0 <= i < |Elements(parsed)| ==>
      NodeRows(assetId, Candidate(parsed, xpath, next).0)[i] ==
        NodeRow(assetId, NodeIds.IdText(next + i), Elements(parsed)[i].tag,
          xpath(StripBlankText(parsed), Visits(StripBlankText(parsed), [], 0)[i].pos),
          HasNonBlankTextChild(Elements(parsed)[i].children))
  {
    var t := Candidate(parsed, xpath, next).0;
    var es := Elements(parsed);
    NormalizedElements(parsed, xpath, next);
    forall i | 0 <= i < |es|
      ensures NodeReadable(Elements(t)[i])
      ensures LowerAscii(Elements(t)[i].attrs[HasTextKey]) == "true" <==> HasNonBlankTextChild(es[i].children)
    {
      FlagTextParses(HasNonBlankTextChild(es[i].children));
    }
  }

  // ---------------------------------------------------------------------------
  // nodeAttributes.csv

  /** What nodeAttributes.csv reads from an element: its id, when it has a user attribute at all. */
  predicate AttributesReadable(e: Node) {
    e.Element? && (UserKeys(e.attrs) != {} ==> NodeIdKey in e.attrs)
  }

  predicate AllAttributesReadable(es: seq<Node>) {
    forall i :: 0 <= i < |es| ==> AttributesReadable(es[i])
  }

  /** r is the row of a user attribute of the element e. */
  predicate IsRowOf(r: NodeAttributeRow, e: Node) {
    e.Element? && r.attributeName in UserKeys(e.attrs) && NodeIdKey in e.attrs &&
    r.nodeId == e.attrs[NodeIdKey] && r.attributeValue == e.attrs[r.attributeName]
  }

  /** The nodeAttributes.csv rows of one element: one per user attribute. */
  function ElementAttributeRows(e: Node): (rows: set<NodeAttributeRow>)
    requires AttributesReadable(e)
    ensures forall r :: r in rows <==> IsRowOf(r, e)
  {
    if UserKeys(e.attrs) == {} then {}
    else set k | k in UserKeys(e.attrs) :: NodeAttributeRow(e.attrs[NodeIdKey], k, e.attrs[k])
  }

  /** The nodeAttributes.csv rows of a list of elements. */
  function NodeAttributeRows(es: seq<Node>): (rows: multiset<NodeAttributeRow>)
    requires AllAttributesReadable(es)
  {
    if es == [] then multiset{} else multiset(ElementAttributeRows(es[0])) + NodeAttributeRows(es[1..])
  }

  /** A row is in nodeAttributes.csv exactly when it is the row of a user attribute of one of the elements. */
  lemma NodeAttributeRowsMembers(es: seq<Node>)
    requires AllAttributesReadable(es)
    ensures forall r :: r in NodeAttributeRows(es) <==> exists i :: 0 <= i < |es| && IsRowOf(r, es[i])
  {
    forall r | r in NodeAttributeRows(es)
      ensures exists i :: 0 <= i < |es| && IsRowOf(r, es[i])
    {
      var i := RowSource(es, r);
    }
    forall r, i | 0 <= i < |es| && IsRowOf(r, es[i])
      ensures r in NodeAttributeRows(es)
    {
      RowPresent(es, r, i);
    }
  }

  /** The element a nodeAttributes.csv row comes from. */
  lemma {:induction false} RowSource(es: seq<Node>, r: NodeAttributeRow) returns (i: nat)
    requires AllAttributesReadable(es) && r in NodeAttributeRows(es)
    ensures i < |es| && IsRowOf(r, es[i])
  {
    if r in ElementAttributeRows(es[0]) {
      i := 0;
    } else {
      assert r in NodeAttributeRows(es[1..]);
      var j := RowSource(es[1..], r);
      assert es[1..][j] == es[j + 1];
      i := j + 1;
    }
  }

  /** Every user attribute of every element has its row. */
  lemma {:induction false} RowPresent(es: seq<Node>, r: NodeAttributeRow, i: nat)
    requires AllAttributesReadable(es) && i < |es| && IsRowOf(r, es[i])
    ensures r in NodeAttributeRows(es)
  {
    if i > 0 {
      assert es[1..][i - 1] == es[i];
      RowPresent(es[1..], r, i - 1);
    }
  }

  /** No attribute whose name starts with "__" reaches nodeAttributes.csv, whoever set it. */
  lemma NoReservedAttributeRows(es: seq<Node>)
    requires AllAttributesReadable(es)
    ensures forall r :: r in NodeAttributeRows(es) ==> !IsReserved(r.attributeName)
  {
    NodeAttributeRowsMembers(es);
  }

  /** The number of user attribute occurrences over a list of elements. */
  function UserAttributeCount(es: seq<Node>): nat
    requires forall i :: 0 <= i < |es| ==> es[i].Element?
  {
    if es == [] then 0 else |UserKeys(es[0].attrs)| + UserAttributeCount(es[1..])
  }

  /** One row per user attribute of an element: the rows are as many as the user attribute names. */
  lemma {:induction false} ElementAttributeRowCount(e: Node)
    requires AttributesReadable(e)
    ensures |ElementAttributeRows(e)| == |UserKeys(e.attrs)|
  {
    if UserKeys(e.attrs) != {} {
      RowsOfKeysCount(UserKeys(e.attrs), e.attrs[NodeIdKey], e.attrs);
    }
  }

  lemma {:induction false} RowsOfKeysCount(ks: set<string>, id: string, attrs: map<string, string>)
    requires ks <= attrs.Keys
    ensures |set k | k in ks :: NodeAttributeRow(id, k, attrs[k])| == |ks|
    decreases ks
  {
    var rows := set k | k in ks :: NodeAttributeRow(id, k, attrs[k]);
    if ks != {} {
      var x :| x in ks;
      var rest := set k | k in ks - {x} :: NodeAttributeRow(id, k, attrs[k]);
      RowsOfKeysCount(ks - {x}, id, attrs);
      assert rows == rest + {NodeAttributeRow(id, x, attrs[x])};
      assert NodeAttributeRow(id, x, attrs[x]) !in rest;
    }
  }

  /** nodeAttributes.csv holds exactly one row per user attribute occurrence, multiplicities included. */
  lemma {:induction false} NodeAttributeRowCount(es: seq<Node>)
    requires AllAttributesReadable(es)
    ensures |NodeAttributeRows(es)| == UserAttributeCount(es)
  {
    if es != [] {
      ElementAttributeRowCount(es[0]);
      NodeAttributeRowCount(es[1..]);
    }
  }

  // ---------------------------------------------------------------------------
  // attributes.csv

  /** The dictionary from attribute name to the set of values seen for it. */
  type Vocabulary = map<string, set<string>>

  /** Adds the user attributes of one element to the dictionary. */
  function AddElement(d: Vocabulary, e: Node): (r: Vocabulary)
    requires e.Element?
    ensures r.Keys == d.Keys + UserKeys(e.attrs)
  {
    var ks := UserKeys(e.attrs);
    map k | k in d.Keys + ks :: (if k in d then d[k] else {}) + (if k in ks then {e.attrs[k]} else {})
  }

  /** Adds the user attributes of a list of elements, in order. */
  function Collect(d: Vocabulary, es: seq<Node>): Vocabulary
    requires forall i :: 0 <= i < |es| ==> es[i].Element?
    decreases |es|
  {
    if es == [] then d else Collect(AddElement(d, es[0]), es[1..])
  }

  /** The rows written from the dictionary: every name paired with every value recorded for it. */
  function VocabularyRows(d: Vocabulary): set<AttributeRow> {
    set k, v | k in d && v in d[k] :: AttributeRow(k, v)
  }

  /** The (name, value) pairs of the user attributes of one element. */
  function ElementPairs(e: Node): set<AttributeRow>
    requires e.Element?
  {
    set k | k in UserKeys(e.attrs) :: AttributeRow(k, e.attrs[k])
  }

  /** The (name, value) pairs of the user attributes of a list of elements. */
  function UserPairs(es: seq<Node>): set<AttributeRow>
    requires forall i :: 0 <= i < |es| ==> es[i].Element?
  {
    if es == [] then {} else ElementPairs(es[0]) + UserPairs(es[1..])
  }

  /** A pair is a user pair of the list exactly when some element carries it as a user attribute. */
  lemma {:induction false} UserPairsMembers(es: seq<Node>)
    requires forall i :: 0 <= i < |es| ==> es[i].Element?
    ensures forall p :: p in UserPairs(es) <==>
      exists i :: 0 <= i < |es| && p in ElementPairs(es[i])
  {
    if es != [] {
      UserPairsMembers(es[1..]);
      forall p | p in UserPairs(es)
        ensures exists i :: 0 <= i < |es| && p in ElementPairs(es[i])
      {
        if p !in ElementPairs(es[0]) {
          assert p in UserPairs(es[1..]);
          var i :| 0 <= i < |es[1..]| && p in ElementPairs(es[1..][i]);
          assert es[1..][i] == es[i + 1];
        }
      }
      forall p | exists i :: 0 <= i < |es| && p in ElementPairs(es[i])
        ensures p in UserPairs(es)
      {
        var i :| 0 <= i < |es| && p in ElementPairs(es[i]);
        if i > 0 {
          assert es[1..][i - 1] == es[i];
        }
      }
    }
  }

  /** Adding one element to the dictionary adds exactly its user pairs to the rows. */
  lemma AddElementPairs(d: Vocabulary, e: Node)
    requires e.Element?
    ensures VocabularyRows(AddElement(d, e)) == VocabularyRows(d) + ElementPairs(e)
  {
    var d' := AddElement(d, e);
    forall p | p in VocabularyRows(d') ensures p in VocabularyRows(d) + ElementPairs(e) {
      assert p.key in d' && p.value in d'[p.key];
      if p.key in d && p.value in d[p.key] {
        assert p in VocabularyRows(d);
      } else {
        assert p.key in UserKeys(e.attrs) && p.value == e.attrs[p.key];
      }
    }
    forall p | p in VocabularyRows(d) + ElementPairs(e) ensures p in VocabularyRows(d') {
      if p in VocabularyRows(d) {
        assert p.key in d && p.value in d[p.key];
      } else {
        var k :| k in UserKeys(e.attrs) && p == AttributeRow(k, e.attrs[k]);
      }
      assert p.key in d' && p.value in d'[p.key];
    }
  }

  /** Adding the elements to the dictionary adds exactly their user (name, value) pairs to its rows. */
  lemma {:induction false} CollectPairs(d: Vocabulary, es: seq<Node>)
    requires forall i :: 0 <= i < |es| ==> es[i].Element?
    ensures VocabularyRows(Collect(d, es)) == VocabularyRows(d) + UserPairs(es)
    decreases |es|
  {
    if es != [] {
      AddElementPairs(d, es[0]);
      CollectPairs(AddElement(d, es[0]), es[1..]);
    }
  }

  /** The (name, value) projection of node-attribute rows. */
  function PairsOf(rows: multiset<NodeAttributeRow>): set<AttributeRow> {
    set r | r in rows :: AttributeRow(r.attributeName, r.attributeValue)
  }

  /**
   attributes.csv is the node-attribute relation with the node id dropped and
   duplicates removed: every (name, value) pair of it once, and nothing else.
   */
  lemma VocabularyIsDedup(es: seq<Node>)
    requires AllAttributesReadable(es)
    ensures VocabularyRows(Collect(map[], es)) == PairsOf(NodeAttributeRows(es))
  {
    CollectPairs(map[], es);
    NodeAttributeRowsMembers(es);
    UserPairsMembers(es);
    assert VocabularyRows(map[]) == {};
    var rows := NodeAttributeRows(es);
    forall p | p in UserPairs(es) ensures p in PairsOf(rows) {
      var i :| 0 <= i < |es| && p in ElementPairs(es[i]);
      var k :| k in UserKeys(es[i].attrs) && p == AttributeRow(k, es[i].attrs[k]);
      var r := NodeAttributeRow(es[i].attrs[NodeIdKey], k, es[i].attrs[k]);
      assert IsRowOf(r, es[i]);
    }
    forall p | p in PairsOf(rows) ensures p in UserPairs(es) {
      var r :| r in rows && p == AttributeRow(r.attributeName, r.attributeValue);
      var i :| 0 <= i < |es| && IsRowOf(r, es[i]);
      assert p in ElementPairs(es[i]);
    }
  }

  // ---------------------------------------------------------------------------
  // nodeParent.csv

  /**
   What nodeParent.csv reads: the id of every element that has a parent element
   (`nested`, for the top of f) and of every element that has an element child.
   */
  predicate ParentsReadable(f: seq<Node>, nested: bool) {
    forall i :: 0 <= i < |f| && f[i].Element? ==>
      ((nested || Roots(f[i].children) != []) ==> NodeIdKey in f[i].attrs) &&
      ParentsReadable(f[i].children, true)
  }

  /** The nodeParent.csv rows of f, whose nodes have the parent element with id `parent`, if any. */
  function ParentRows(f: seq<Node>, parent: Option<string>): (rows: seq<NodeParentRow>)
    requires ParentsReadable(f, parent.Some?)
  {
    if f == [] then []
    else
      assert ParentsReadable(f[1..], parent.Some?) by {
        forall i | 0 <= i < |f[1..]| ensures f[1..][i] == f[i + 1] { }
      }
      if f[0].Element? then
        var cs := f[0].children;
        if parent.Some? then
          var id := f[0].attrs[NodeIdKey];
          [NodeParentRow(id, parent.value)] + ParentRows(cs, Some(id)) + ParentRows(f[1..], parent)
        else if Roots(cs) == [] then
          NoElementChildNoRows(cs);
          ParentRows(f[1..], parent)
        else
          ParentRows(cs, Some(f[0].attrs[NodeIdKey])) + ParentRows(f[1..], parent)
      else ParentRows(f[1..], parent)
  }

  /** The number of elements of a forest without any element in it is zero. */
  lemma {:induction false} NoRootsNoElements(f: seq<Node>)
    requires Roots(f) == []
    ensures Elements(f) == []
    decreases |f|
  {
    if f != [] {
      assert !f[0].Element?;
      NoRootsNoElements(f[1..]);
    }
  }

  lemma {:induction false} NoRootsNoElementAt(f: seq<Node>, i: nat)
    requires Roots(f) == [] && i < |f|
    ensures !f[i].Element?
    decreases i
  {
    if i > 0 {
      NoRootsNoElementAt(f[1..], i - 1);
    }
  }

  /** A root without element children contributes no row and reads no id. */
  lemma NoElementChildNoRows(cs: seq<Node>)
    requires Roots(cs) == []
    ensures ParentsReadable(cs, true)
  {
    forall i | 0 <= i < |cs| ensures !cs[i].Element? {
      NoRootsNoElementAt(cs, i);
    }
  }

  /** Every element below a parent gets a row; top-level elements get none. */
  lemma {:induction false} ParentRowCount(f: seq<Node>, parent: Option<string>)
    requires ParentsReadable(f, parent.Some?)
    ensures |ParentRows(f, parent)| == if parent.Some? then |Elements(f)| else |Elements(f)| - |Roots(f)|
  {
    if f != [] {
      assert ParentsReadable(f[1..], parent.Some?) by {
        forall i | 0 <= i < |f[1..]| ensures f[1..][i] == f[i + 1] { }
      }
      ParentRowCount(f[1..], parent);
      if f[0].Element? {
        var cs := f[0].children;
        if parent.None? && Roots(cs) == [] {
          NoRootsNoElements(cs);
        } else {
          ParentRowCount(cs, Some(f[0].attrs[NodeIdKey]));
        }
      }
    }
  }

  /** The id an element carries, or the empty text when it carries none. */
  function IdOf(e: Node): string {
    if e.Element? && NodeIdKey in e.attrs then e.attrs[NodeIdKey] else ""
  }

  /** One row per element child of a node with id `parentId`: the child's id with `parentId`. */
  function ChildRows(cs: seq<Node>, parentId: string): seq<NodeParentRow> {
    seq(|Roots(cs)|, i requires 0 <= i < |Roots(cs)| => NodeParentRow(IdOf(Roots(cs)[i]), parentId))
  }

  function ChildrenOf(n: Node): seq<Node> {
    if n.Element? then n.children else []
  }

  /** Reference meaning of nodeParent.csv: for each element in turn, the rows of its element children. */
  function FamilyRows(es: seq<Node>): seq<NodeParentRow> {
    if es == [] then [] else ChildRows(ChildrenOf(es[0]), IdOf(es[0])) + FamilyRows(es[1..])
  }

  lemma {:induction false} FamilyRowsAppend(a: seq<Node>, b: seq<Node>)
    ensures FamilyRows(a + b) == FamilyRows(a) + FamilyRows(b)
    decreases |a|
  {
    if a == [] {
      assert a + b == b;
    } else {
      assert (a + b)[0] == a[0];
      assert (a + b)[1..] == a[1..] + b;
      FamilyRowsAppend(a[1..], b);
    }
  }

  /** ChildRows of a forest, split at its first node. */
  lemma ChildRowsCons(f: seq<Node>, p: string)
    requires f != []
    ensures ChildRows(f, p) == (if f[0].Element? then [NodeParentRow(IdOf(f[0]), p)] else []) + ChildRows(f[1..], p)
  {
    var head: seq<NodeParentRow> := if f[0].Element? then [NodeParentRow(IdOf(f[0]), p)] else [];
    assert Roots(f) == (if f[0].Element? then [f[0]] else []) + Roots(f[1..]);
    assert |ChildRows(f, p)| == |head| + |ChildRows(f[1..], p)|;
    forall i | 0 <= i < |ChildRows(f, p)| ensures ChildRows(f, p)[i] == (head + ChildRows(f[1..], p))[i] {
      if i >= |head| {
        assert Roots(f)[i] == Roots(f[1..])[i - |head|];
      }
    }
  }

  /** FamilyRows of the elements of a forest whose first node is an element. */
  lemma FamilyRowsCons(f: seq<Node>)
    requires f != [] && f[0].Element?
    ensures FamilyRows(Elements(f)) ==
      ChildRows(f[0].children, IdOf(f[0])) + FamilyRows(Elements(f[0].children)) + FamilyRows(Elements(f[1..]))
  {
    var head: seq<Node> := [f[0]] + Elements(f[0].children);
    assert Elements(f) == head + Elements(f[1..]);
    FamilyRowsAppend(head, Elements(f[1..]));
    assert head[0] == f[0] && head[1..] == Elements(f[0].children);
    assert ChildrenOf(f[0]) == f[0].children;
    assert FamilyRows(head) == ChildRows(f[0].children, IdOf(f[0])) + FamilyRows(Elements(f[0].children));
  }

  /**
   Below a parent with id p, the rows ParentRows produces are, up to order, the
   rows of the top-level elements with p, and for every element the rows pairing
   its element children with it.
   */
  lemma {:induction false} ParentRowsAreFamiliesBelow(f: seq<Node>, p: string)
    requires ParentsReadable(f, true)
    ensures multiset(ParentRows(f, Some(p))) == multiset(ChildRows(f, p)) + multiset(FamilyRows(Elements(f)))
    decreases f
  {
    if f != [] {
      assert ParentsReadable(f[1..], true) by {
        forall i | 0 <= i < |f[1..]| ensures f[1..][i] == f[i + 1] { }
      }
      ParentRowsAreFamiliesBelow(f[1..], p);
      ChildRowsCons(f, p);
      if f[0].Element? {
        var cs := f[0].children;
        var id := f[0].attrs[NodeIdKey];
        assert IdOf(f[0]) == id;
        ParentRowsAreFamiliesBelow(cs, id);
        FamilyRowsCons(f);
        assert ParentRows(f, Some(p)) == [NodeParentRow(id, p)] + ParentRows(cs, Some(id)) + ParentRows(f[1..], Some(p));
      } else {
        assert Elements(f) == Elements(f[1..]);
        assert ParentRows(f, Some(p)) == ParentRows(f[1..], Some(p));
      }
    }
  }

  /**
   The rows of nodeParent.csv for a document are, up to order, exactly the rows
   pairing every element's element children with that element's id.
   */
  lemma {:induction false} ParentRowsAreFamilies(f: seq<Node>)
    requires ParentsReadable(f, false)
    ensures multiset(ParentRows(f, None)) == multiset(FamilyRows(Elements(f)))
    decreases |f|
  {
    if f != [] {
      assert ParentsReadable(f[1..], false) by {
        forall i | 0 <= i < |f[1..]| ensures f[1..][i] == f[i + 1] { }
      }
      ParentRowsAreFamilies(f[1..]);
      if f[0].Element? {
        var cs := f[0].children;
        FamilyRowsCons(f);
        if Roots(cs) == [] {
          NoRootsNoElements(cs);
          assert ParentRows(f, None) == ParentRows(f[1..], None);
        } else {
          var id := f[0].attrs[NodeIdKey];
          assert IdOf(f[0]) == id;
          ParentRowsAreFamiliesBelow(cs, id);
          assert ParentRows(f, None) == ParentRows(cs, Some(id)) + ParentRows(f[1..], None);
        }
      } else {
        assert Elements(f) == Elements(f[1..]);
        assert ParentRows(f, None) == ParentRows(f[1..], None);
      }
    }
  }

  /** The ids of a list of elements, where they have one. */
  function IdsOf(es: seq<Node>): set<string> {
    set i | 0 <= i < |es| && es[i].Element? && NodeIdKey in es[i].attrs :: es[i].attrs[NodeIdKey]
  }

  /**
   Every nodeParent.csv row pairs the id of an element of the document with the id
   of its parent, which is another element of the document or the given parent.
   */
  lemma {:induction false} ParentRowsReferToElements(f: seq<Node>, parent: Option<string>)
    requires ParentsReadable(f, parent.Some?)
    ensures forall r :: r in ParentRows(f, parent) ==>
      r.nodeId in IdsOf(Elements(f)) && (r.parentNodeId in IdsOf(Elements(f)) || Some(r.parentNodeId) == parent)
  {
    if f != [] {
      assert ParentsReadable(f[1..], parent.Some?) by {
        forall i | 0 <= i < |f[1..]| ensures f[1..][i] == f[i + 1] { }
      }
      ParentRowsReferToElements(f[1..], parent);
      var es := Elements(f);
      var head: seq<Node> := if f[0].Element? then [f[0]] + Elements(f[0].children) else [];
      assert es == head + Elements(f[1..]);
      assert IdsOf(Elements(f[1..])) <= IdsOf(es) by {
        forall x | x in IdsOf(Elements(f[1..])) ensures x in IdsOf(es) {
          var j :| 0 <= j < |Elements(f[1..])| && Elements(f[1..])[j].Element? && NodeIdKey in Elements(f[1..])[j].attrs
                    && Elements(f[1..])[j].attrs[NodeIdKey] == x;
          assert es[|head| + j] == Elements(f[1..])[j];
        }
      }
      if f[0].Element? {
        var cs := f[0].children;
        if !(parent.None? && Roots(cs) == []) {
          ParentRowsReferToElements(cs, Some(f[0].attrs[NodeIdKey]));
          assert IdsOf(Elements(cs)) <= IdsOf(es) by {
            forall x | x in IdsOf(Elements(cs)) ensures x in IdsOf(es) {
              var j :| 0 <= j < |Elements(cs)| && Elements(cs)[j].Element? && NodeIdKey in Elements(cs)[j].attrs
                        && Elements(cs)[j].attrs[NodeIdKey] == x;
              assert es[1 + j] == Elements(cs)[j];
            }
          }
          assert es[0] == f[0];
          assert f[0].attrs[NodeIdKey] in IdsOf(es);
        }
      }
    }
  }

  // ---------------------------------------------------------------------------
  // The relations over the whole store of persisted trees, in listing order.

  /** The persisted trees, one per asset id. */
  type Trees = Store<seq<Node>>

  predicate StoreNodesReadable(trees: Trees) {
    forall i :: 0 <= i < |trees| ==> NodesReadable(trees[i].content)
  }

  predicate StoreAttributesReadable(trees: Trees) {
    forall i :: 0 <= i < |trees| ==> AllAttributesReadable(Elements(trees[i].content))
  }

  predicate StoreParentsReadable(trees: Trees) {
    forall i :: 0 <= i < |trees| ==> ParentsReadable(trees[i].content, false)
  }

  /** nodes.csv: the rows of every persisted tree, the asset id being the name it is stored under. */
  function NodesTable(trees: Trees): seq<NodeRow>
    requires StoreNodesReadable(trees)
    decreases |trees|
  {
    if trees == [] then []
    else
      var last := trees[|trees| - 1];
      NodesTable(trees[..|trees| - 1]) + NodeRows(last.name, last.content)
  }

  /** nodeAttributes.csv: the user attribute rows of every persisted tree. */
  function NodeAttributesTable(trees: Trees): multiset<NodeAttributeRow>
    requires StoreAttributesReadable(trees)
    decreases |trees|
  {
    if trees == [] then multiset{}
    else NodeAttributesTable(trees[..|trees| - 1]) + NodeAttributeRows(Elements(trees[|trees| - 1].content))
  }

  /** The dictionary built by reading every persisted tree in listing order. */
  function CollectStore(trees: Trees): Vocabulary
    decreases |trees|
  {
    if trees == [] then map[]
    else Collect(CollectStore(trees[..|trees| - 1]), Elements(trees[|trees| - 1].content))
  }

  /** attributes.csv: the rows of the dictionary built over all persisted trees. */
  function AttributesTable(trees: Trees): set<AttributeRow> {
    VocabularyRows(CollectStore(trees))
  }

  /** nodeParent.csv: the parent rows of every persisted tree. */
  function NodeParentTable(trees: Trees): seq<NodeParentRow>
    requires StoreParentsReadable(trees)
    decreases |trees|
  {
    if trees == [] then []
    else NodeParentTable(trees[..|trees| - 1]) + ParentRows(trees[|trees| - 1].content, None)
  }

  /** The number of elements, and of top-level elements, over all persisted trees. */
  function ElementCount(trees: Trees): nat
    decreases |trees|
  {
    if trees == [] then 0 else ElementCount(trees[..|trees| - 1]) + |Elements(trees[|trees| - 1].content)|
  }

  function RootCount(trees: Trees): nat
    decreases |trees|
  {
    if trees == [] then 0 else RootCount(trees[..|trees| - 1]) + |Roots(trees[|trees| - 1].content)|
  }

  /** Every top-level element is an element. */
  lemma {:induction false} RootsAreElements(f: seq<Node>)
    ensures |Roots(f)| <= |Elements(f)|
    decreases |f|
  {
    if f != [] {
      RootsAreElements(f[1..]);
    }
  }

  /** nodes.csv has exactly one row per element of every persisted tree. */
  lemma {:induction false} NodesTableCount(trees: Trees)
    requires StoreNodesReadable(trees)
    ensures |NodesTable(trees)| == ElementCount(trees)
    decreases |trees|
  {
    if trees != [] {
      NodesTableCount(trees[..|trees| - 1]);
    }
  }

  /** A nodes.csv row names a stored tree: an asset without a persisted tree contributes no row. */
  lemma {:induction false} NodesTableAssets(trees: Trees)
    requires StoreNodesReadable(trees)
    ensures forall i :: 0 <= i < |NodesTable(trees)| ==> NodesTable(trees)[i].assetId in Names(trees)
    decreases |trees|
  {
    if trees != [] {
      var init := trees[..|trees| - 1];
      var last := trees[|trees| - 1];
      NodesTableAssets(init);
      assert Names(init) <= Names(trees) by {
        forall x | x in Names(init) ensures x in Names(trees) {
          var i :| 0 <= i < |init| && init[i].name == x;
          assert trees[i].name == x;
        }
      }
      assert last.name in Names(trees);
      var rows := NodesTable(trees);
      forall i | 0 <= i < |rows| ensures rows[i].assetId in Names(trees) {
        if i >= |NodesTable(init)| {
          assert rows[i] == NodeRows(last.name, last.content)[i - |NodesTable(init)|];
        } else {
          assert rows[i] == NodesTable(init)[i];
        }
      }
    }
  }

  /** nodeParent.csv has one row per element that is not a root: elements minus roots. */
  lemma {:induction false} NodeParentTableCount(trees: Trees)
    requires StoreParentsReadable(trees)
    ensures RootCount(trees) <= ElementCount(trees)
    ensures |NodeParentTable(trees)| == ElementCount(trees) - RootCount(trees)
    decreases |trees|
  {
    if trees != [] {
      NodeParentTableCount(trees[..|trees| - 1]);
      ParentRowCount(trees[|trees| - 1].content, None);
      RootsAreElements(trees[|trees| - 1].content);
    }
  }

  /** The (name, value) projection distributes over multiset union. */
  lemma PairsOfUnion(a: multiset<NodeAttributeRow>, b: multiset<NodeAttributeRow>)
    ensures PairsOf(a + b) == PairsOf(a) + PairsOf(b)
  {
    forall p | p in PairsOf(a + b) ensures p in PairsOf(a) + PairsOf(b) {
      var r :| r in a + b && p == AttributeRow(r.attributeName, r.attributeValue);
    }
  }

  /**
   attributes.csv, built through the name-to-values dictionary, is exactly the set
   of distinct (name, value) pairs of nodeAttributes.csv.
   */
  lemma {:induction false} AttributesTableIsDedup(trees: Trees)
    requires StoreAttributesReadable(trees)
    ensures AttributesTable(trees) == PairsOf(NodeAttributesTable(trees))
    decreases |trees|
  {
    if trees == [] {
      assert VocabularyRows(map[]) == {};
    } else {
      var init := trees[..|trees| - 1];
      var es := Elements(trees[|trees| - 1].content);
      AttributesTableIsDedup(init);
      CollectPairs(CollectStore(init), es);
      CollectPairs(map[], es);
      assert VocabularyRows(map[]) == {};
      VocabularyIsDedup(es);
      PairsOfUnion(NodeAttributesTable(init), NodeAttributeRows(es));
    }
  }
}

=== FILE: markup.dfy ===
/**
 A parsed markup document, as the tolerant HTML parser hands it over: a sequence
 of top-level nodes (the children of the parser's document node), each of which
 is an element with a tag, an attribute map and child nodes, a text node, a
 comment, or some other non-element node (processing instruction, doctype).
 */
module Markup {
  import opened Wrappers

  datatype Node =
    | Element(tag: string, attrs: map<string, string>, children: seq<Node>)
    | Text(content: string)
    | Comment(content: string)
    | Other(content: string)

  /** The white space characters of XPath's normalize-space (XPath 1.0 section 4.2). */
  predicate IsSpace(c: char) {
    c == ' ' || c == '\t' || c == '\r' || c == '\n'
  }

  /** True iff normalize-space(s) is the empty string. */
  predicate IsBlank(s: string) {
    forall i :: 0 <= i < |s| ==> IsSpace(s[i])
  }

  /** Every element of the forest, in document order (an element before its descendants). */
  function Elements(f: seq<Node>): (es: seq<Node>)
    ensures forall i :: 0 <= i < |es| ==> es[i].Element?
  {
    if f == [] then []
    else (if f[0].Element? then [f[0]] + Elements(f[0].children) else []) + Elements(f[1..])
  }

  /** The top-level elements of the forest, in order: the elements without a parent element. */
  function Roots(f: seq<Node>): (rs: seq<Node>)
    ensures |rs| <= |f|
    ensures forall i :: 0 <= i < |rs| ==> rs[i].Element?
  {
    if f == [] then []
    else (if f[0].Element? then [f[0]] else []) + Roots(f[1..])
  }

  /** The forest holds nothing but elements, at every depth. */
  predicate ElementOnly(f: seq<Node>) {
    forall i :: 0 <= i < |f| ==> f[i].Element? && ElementOnly(f[i].children)
  }

  /** No text node of the forest, at any depth, consists of white space only. */
  predicate NoBlankText(f: seq<Node>) {
    forall i :: 0 <= i < |f| ==>
      (f[i].Text? ==> !IsBlank(f[i].content)) &&
      (f[i].Element? ==> NoBlankText(f[i].children))
  }

  /** Some direct child is a text node (comments and other nodes do not count). */
  predicate HasTextChild(cs: seq<Node>) {
    exists i :: 0 <= i < |cs| && cs[i].Text?
  }

  /** An element together with its position: the child index at every level from the document node down. */
  datatype Visit = Visit(pos: seq<nat>, node: Node)

  /**
   The elements of f in document order, with their positions, where f sits below
   the position `prefix` and its first node is child number `start` there.
   */
  function Visits(f: seq<Node>, prefix: seq<nat>, start: nat): (vs: seq<Visit>)
    ensures |vs| == |Elements(f)|
    ensures forall i :: 0 <= i < |vs| ==> vs[i].node.Element?
  {
    if f == [] then []
    else
      (if f[0].Element? then [Visit(prefix + [start], f[0])] + Visits(f[0].children, prefix + [start], 0) else [])
      + Visits(f[1..], prefix, start + 1)
  }

  /** Listing the elements distributes over concatenation of forests. */
  lemma {:induction false} ElementsAppend(a: seq<Node>, b: seq<Node>)
    ensures Elements(a + b) == Elements(a) + Elements(b)
    decreases |a|
  {
    if a == [] {
      assert a + b == b;
    } else {
      assert (a + b)[0] == a[0] && (a + b)[1..] == a[1..] + b;
      ElementsAppend(a[1..], b);
    }
  }

  /** So does listing the top-level elements. */
  lemma {:induction false} RootsAppend(a: seq<Node>, b: seq<Node>)
    ensures Roots(a + b) == Roots(a) + Roots(b)
    decreases |a|
  {
    if a == [] {
      assert a + b == b;
    } else {
      assert (a + b)[0] == a[0] && (a + b)[1..] == a[1..] + b;
      RootsAppend(a[1..], b);
    }
  }

  /** The i-th visit is the visit of the i-th element in document order. */
  lemma {:induction false} VisitsNodes(f: seq<Node>, prefix: seq<nat>, start: nat)
    ensures forall i :: 0 <= i < |Elements(f)| ==> Visits(f, prefix, start)[i].node == Elements(f)[i]
    decreases f
  {
    if f != [] {
      VisitsNodes(f[1..], prefix, start + 1);
      if f[0].Element? {
        VisitsNodes(f[0].children, prefix + [start], 0);
      }
    }
  }

  /** The node reached from the forest by following the child indices of pos, if there is one. */
  function NodeAt(f: seq<Node>, pos: seq<nat>): Option<Node>
    decreases pos
  {
    if pos == [] || pos[0] >= |f| then None
    else if |pos| == 1 then Some(f[pos[0]])
    else if f[pos[0]].Element? then NodeAt(f[pos[0]].children, pos[1..])
    else None
  }

  /** Every position visited below prefix extends it. */
  lemma {:induction false} VisitsBelow(f: seq<Node>, prefix: seq<nat>, start: nat)
    ensures forall i :: 0 <= i < |Visits(f, prefix, start)| ==>
      |prefix| < |Visits(f, prefix, start)[i].pos| && Visits(f, prefix, start)[i].pos[..|prefix|] == prefix
    decreases f
  {
    if f != [] {
      VisitsBelow(f[1..], prefix, start + 1);
      if f[0].Element? {
        VisitsBelow(f[0].children, prefix + [start], 0);
        var here := prefix + [start];
        var inner := Visits(f[0].children, here, 0);
        assert Visits(f, prefix, start) == [Visit(here, f[0])] + inner + Visits(f[1..], prefix, start + 1);
        forall i | 0 <= i < |inner|
          ensures |prefix| < |inner[i].pos| && inner[i].pos[..|prefix|] == prefix
        {
          var p := inner[i].pos;
          assert |here| < |p| && p[..|here|] == here;
          assert p[..|prefix|] == here[..|prefix|];
          assert here[..|prefix|] == prefix;
        }
      }
    }
  }

  /** Following [start] + tail from g is following tail from the children of g[start]. */
  lemma LocateBelow(g: seq<Node>, start: nat, tail: seq<nat>)
    requires start < |g| && g[start].Element? && tail != []
    ensures NodeAt(g, [start] + tail) == NodeAt(g[start].children, tail)
  {
    assert ([start] + tail)[1..] == tail;
  }

  /** Every visited position locates its element: the position recorded is where the element sits. */
  lemma {:induction false} VisitsLocate(g: seq<Node>, prefix: seq<nat>, start: nat)
    requires start <= |g|
    ensures forall i :: 0 <= i < |Visits(g[start..], prefix, start)| ==>
      |prefix| < |Visits(g[start..], prefix, start)[i].pos| &&
      NodeAt(g, Visits(g[start..], prefix, start)[i].pos[|prefix|..]) == Some(Visits(g[start..], prefix, start)[i].node)
    decreases g, |g| - start
  {
    VisitsBelow(g[start..], prefix, start);
    if start < |g| {
      var f := g[start..];
      assert f[0] == g[start] && f[1..] == g[start + 1..];
      VisitsLocate(g, prefix, start + 1);
      var rest := Visits(g[start + 1..], prefix, start + 1);
      if f[0].Element? {
        var here := prefix + [start];
        var cs := f[0].children;
        assert cs[0..] == cs;
        VisitsLocate(cs, here, 0);
        VisitsBelow(cs, here, 0);
        var inner := Visits(cs, here, 0);
        var vs := [Visit(here, f[0])] + inner + rest;
        assert Visits(f, prefix, start) == vs;
        forall i | 0 <= i < |inner|
          ensures NodeAt(g, inner[i].pos[|prefix|..]) == Some(inner[i].node)
        {
          var tail := inner[i].pos[|here|..];
          assert NodeAt(cs, tail) == Some(inner[i].node);
          assert inner[i].pos[|prefix|..] == [start] + tail;
          LocateBelow(g, start, tail);
        }
        assert vs[0].pos[|prefix|..] == [start];
        assert forall i :: 1 <= i < 1 + |inner| ==> vs[i] == inner[i - 1];
        assert forall i :: 1 + |inner| <= i < |vs| ==> vs[i] == rest[i - 1 - |inner|];
      } else {
        assert Visits(f, prefix, start) == rest;
      }
    }
  }
}

=== FILE: node_ids.dfy ===
/**
 Node identifiers. The ingestion code stamps every element with the text of a
 freshly generated GUID; here the generator is a counter that is never reset,
 and the identifier handed out for counter value n is the decimal text of n.
 What matters downstream is only that different counter values give different
 texts, which is what IdTextInjective states.
 */
module NodeIds {

  predicate IsDigit(c: char) {
    '0' <= c <= '9'
  }

  function DigitChar(d: nat): (c: char)
    requires d < 10
    ensures IsDigit(c)
  {
    ('0' as int + d) as char
  }

  function DigitValue(c: char): (d: nat)
    requires IsDigit(c)
    ensures d < 10 && DigitChar(d) == c
  {
    (c as int - '0' as int) as nat
  }

  /** The identifier text handed out for counter value n. */
  function IdText(n: nat): (s: string)
    ensures |s| >= 1
    ensures forall i :: 0 <= i < |s| ==> IsDigit(s[i])
  {
    if n < 10 then [DigitChar(n)] else IdText(n / 10) + [DigitChar(n % 10)]
  }

  /** Reads a string of decimal digits back as a number. */
  function ParseDecimal(s: string): nat
    requires forall i :: 0 <= i < |s| ==> IsDigit(s[i])
  {
    if s == [] then 0 else 10 * ParseDecimal(s[..|s| - 1]) + DigitValue(s[|s| - 1])
  }

  /** Reading an identifier back gives the counter value it was made from. */
  lemma {:induction false} ParseIdText(n: nat)
    ensures ParseDecimal(IdText(n)) == n
  {
    var s := IdText(n);
    if n < 10 {
      assert s[..|s| - 1] == [];
      assert DigitValue(DigitChar(n)) == n;
    } else {
      ParseIdText(n / 10);
      assert s[..|s| - 1] == IdText(n / 10);
      assert DigitValue(s[|s| - 1]) == n % 10;
    }
  }

  /** Different counter values give different identifiers. */
  lemma IdTextInjective(a: nat, b: nat)
    ensures IdText(a) == IdText(b) ==> a == b
  {
    ParseIdText(a);
    ParseIdText(b);
  }
}

=== FILE: normalize.dfy ===
/**
 The per-document normaliser of the JSON phase: remove white-space-only text
 nodes, stamp every element with the reserved attributes __nodeid, __xpath and
 __hastext in document order, remove every non-element node, and hand the result
 to the strict re-parse, which either accepts it or drops the document.
 */
module Normalize {
  import opened Wrappers
  import opened Markup
  import NodeIds

  const NodeIdKey: string := "__nodeid"
  const XPathKey: string := "__xpath"
  const HasTextKey: string := "__hastext"

  /** The text .NET's bool.ToString gives. */
  function FlagText(b: bool): string {
    if b then "True" else "False"
  }

  /** The reference meaning of has-text: a direct text child with something other than white space in it. */
  predicate HasNonBlankTextChild(cs: seq<Node>) {
    exists i :: 0 <= i < |cs| && cs[i].Text? && !IsBlank(cs[i].content)
  }

  // ---------------------------------------------------------------------------
  // Step 1: remove every text node whose content is white space only, at any depth.

  function StripBlankText(f: seq<Node>): (r: seq<Node>)
    ensures NoBlankText(r)
  {
    if f == [] then []
    else
      (match f[0]
       case Text(s) => if IsBlank(s) then [] else [f[0]]
       case Element(t, a, cs) => [Element(t, a, StripBlankText(cs))]
       case _ => [f[0]])
      + StripBlankText(f[1..])
  }

  /** An element with its children stripped; any other node is left as it is. */
  function StripNode(e: Node): Node {
    if e.Element? then Element(e.tag, e.attrs, StripBlankText(e.children)) else e
  }

  /** xs is g applied to each of ys, position by position. */
  predicate Pointwise(xs: seq<Node>, ys: seq<Node>, g: Node -> Node) {
    |xs| == |ys| && forall i :: 0 <= i < |ys| ==> xs[i] == g(ys[i])
  }

  lemma PointwiseConcat(x1: seq<Node>, y1: seq<Node>, x2: seq<Node>, y2: seq<Node>, g: Node -> Node)
    requires Pointwise(x1, y1, g) && Pointwise(x2, y2, g)
    ensures Pointwise(x1 + x2, y1 + y2, g)
  {
    forall i | 0 <= i < |y1| + |y2| ensures (x1 + x2)[i] == g((y1 + y2)[i]) {
      if i >= |y1| {
        assert (x1 + x2)[i] == x2[i - |y1|] && (y1 + y2)[i] == y2[i - |y1|];
      }
    }
  }

  /** One step of stripping: what the first node of a non-empty forest becomes. */
  lemma StripCons(f: seq<Node>)
    requires f != []
    ensures f[0].Element? ==> StripBlankText(f) == [StripNode(f[0])] + StripBlankText(f[1..])
    ensures f[0].Text? && IsBlank(f[0].content) ==> StripBlankText(f) == StripBlankText(f[1..])
    ensures !f[0].Element? && !(f[0].Text? && IsBlank(f[0].content)) ==> StripBlankText(f) == [f[0]] + StripBlankText(f[1..])
  {
  }

  /** Stripping keeps every element, in document order, with its tag and attributes. */
  lemma {:induction false} StripKeepsElements(f: seq<Node>)
    ensures |Elements(StripBlankText(f))| == |Elements(f)|
    ensures forall i :: 0 <= i < |Elements(f)| ==> Elements(StripBlankText(f))[i] == StripNode(Elements(f)[i])
    decreases f
  {
    if f != [] {
      StripKeepsElements(f[1..]);
      if f[0].Element? {
        StripKeepsElements(f[0].children);
        StripElementsHead(f);
      } else {
        StripElementsOther(f);
      }
      assert Pointwise(Elements(StripBlankText(f)), Elements(f), StripNode);
    }
  }

  /** The step of StripKeepsElements for a forest headed by a node that is not an element. */
  lemma StripElementsOther(f: seq<Node>)
    requires f != [] && !f[0].Element?
    requires Pointwise(Elements(StripBlankText(f[1..])), Elements(f[1..]), StripNode)
    ensures Pointwise(Elements(StripBlankText(f)), Elements(f), StripNode)
  {
    StripCons(f);
    var rest := StripBlankText(f[1..]);
    assert Elements(f) == Elements(f[1..]);
    if !(f[0].Text? && IsBlank(f[0].content)) {
      ElementsAppend([f[0]], rest);
      assert Elements([f[0]]) == [];
    }
  }

  /** The element step of StripKeepsElements: a stripped head element followed by its stripped subtree and the stripped rest. */
  lemma StripElementsHead(f: seq<Node>)
    requires f != [] && f[0].Element?
    requires Pointwise(Elements(StripBlankText(f[0].children)), Elements(f[0].children), StripNode)
    requires Pointwise(Elements(StripBlankText(f[1..])), Elements(f[1..]), StripNode)
    ensures Pointwise(Elements(StripBlankText(f)), Elements(f), StripNode)
  {
    StripCons(f);
    var rest := StripBlankText(f[1..]);
    var head := StripNode(f[0]);
    var inner := StripBlankText(f[0].children);
    ElementsAppend([head], rest);
    assert Elements([head]) == [head] + Elements(inner);
    assert Elements(f) == [f[0]] + Elements(f[0].children) + Elements(f[1..]);
    PointwiseConcat([head], [f[0]], Elements(inner), Elements(f[0].children), StripNode);
    PointwiseConcat([head] + Elements(inner), [f[0]] + Elements(f[0].children), Elements(rest), Elements(f[1..]), StripNode);
  }

  /** Stripping keeps the top-level elements. */
  lemma {:induction false} StripKeepsRoots(f: seq<Node>)
    ensures |Roots(StripBlankText(f))| == |Roots(f)|
    decreases |f|
  {
    if f != [] {
      StripCons(f);
      StripKeepsRoots(f[1..]);
      var rest := StripBlankText(f[1..]);
      if f[0].Element? {
        RootsAppend([StripNode(f[0])], rest);
      } else if !(f[0].Text? && IsBlank(f[0].content)) {
        RootsAppend([f[0]], rest);
      }
    }
  }

  /** A forest with no white-space-only text at any depth is left exactly as it is: stripping removes nothing else. */
  lemma {:induction false} StripNoBlank(f: seq<Node>)
    requires NoBlankText(f)
    ensures StripBlankText(f) == f
    decreases f
  {
    if f != [] {
      NoBlankSplit(f);
      StripNoBlank(f[1..]);
      if f[0].Element? {
        StripNoBlank(f[0].children);
      }
      StripCons(f);
      assert f == [f[0]] + f[1..];
    }
  }

  /** The head and the tail of a forest without blank text have none either. */
  lemma NoBlankSplit(f: seq<Node>)
    requires f != [] && NoBlankText(f)
    ensures !(f[0].Text? && IsBlank(f[0].content))
    ensures f[0].Element? ==> NoBlankText(f[0].children)
    ensures NoBlankText(f[1..])
  {
    forall i | 0 <= i < |f[1..]|
      ensures (f[1..][i].Text? ==> !IsBlank(f[1..][i].content)) && (f[1..][i].Element? ==> NoBlankText(f[1..][i].children))
    {
      assert f[1..][i] == f[i + 1];
    }
  }

  /** The nodes of one level that are not white-space-only text, in their order. */
  function KeptNodes(f: seq<Node>): (r: seq<Node>)
    ensures forall x :: x in r <==> x in f && !(x.Text? && IsBlank(x.content))
    decreases |f|
  {
    if f == [] then []
    else
      assert forall x :: x in f <==> x == f[0] || x in f[1..];
      (if f[0].Text? && IsBlank(f[0].content) then [] else [f[0]]) + KeptNodes(f[1..])
  }

  /**
   Stripping removes only white-space-only text: at every level the result is the
   level's other nodes in their order, each element with its own children stripped
   and every text, comment or other node unchanged.
   */
  lemma {:induction false} StripKeepsNodes(f: seq<Node>)
    ensures Pointwise(StripBlankText(f), KeptNodes(f), StripNode)
    decreases |f|
  {
    if f != [] {
      StripCons(f);
      StripKeepsNodes(f[1..]);
      if f[0].Text? && IsBlank(f[0].content) {
      } else if f[0].Element? {
        PointwiseConcat([StripNode(f[0])], [f[0]], StripBlankText(f[1..]), KeptNodes(f[1..]), StripNode);
      } else {
        PointwiseConcat([f[0]], [f[0]], StripBlankText(f[1..]), KeptNodes(f[1..]), StripNode);
      }
    }
  }

  /** After stripping, an element has a text child exactly when it had one with non-white-space content. */
  lemma StripTextChild(cs: seq<Node>)
    ensures HasTextChild(StripBlankText(cs)) <==> HasNonBlankTextChild(cs)
  {
    StripKeepsText(cs);
    StripFindsText(cs);
  }

  /** A text child that is not white space only survives stripping. */
  lemma {:induction false} StripKeepsText(cs: seq<Node>)
    ensures HasNonBlankTextChild(cs) ==> HasTextChild(StripBlankText(cs))
    decreases |cs|
  {
    if cs != [] && HasNonBlankTextChild(cs) {
      StripCons(cs);
      var rest := StripBlankText(cs[1..]);
      if cs[0].Text? && !IsBlank(cs[0].content) {
        assert ([cs[0]] + rest)[0].Text?;
      } else {
        var i :| 0 <= i < |cs| && cs[i].Text? && !IsBlank(cs[i].content);
        assert cs[1..][i - 1] == cs[i];
        StripKeepsText(cs[1..]);
        var j :| 0 <= j < |rest| && rest[j].Text?;
        var head: seq<Node> := if cs[0].Element? then [StripNode(cs[0])] else if cs[0].Text? then [] else [cs[0]];
        assert StripBlankText(cs) == head + rest;
        assert (head + rest)[|head| + j] == rest[j];
      }
    }
  }

  /** Every text child left by stripping was a text child that is not white space only. */
  lemma {:induction false} StripFindsText(cs: seq<Node>)
    ensures HasTextChild(StripBlankText(cs)) ==> HasNonBlankTextChild(cs)
    decreases |cs|
  {
    if cs != [] && HasTextChild(StripBlankText(cs)) {
      StripCons(cs);
      var rest := StripBlankText(cs[1..]);
      if cs[0].Text? && !IsBlank(cs[0].content) {
        assert cs[0].Text? && !IsBlank(cs[0].content);
      } else {
        var head: seq<Node> := if cs[0].Element? then [StripNode(cs[0])] else if cs[0].Text? then [] else [cs[0]];
        assert StripBlankText(cs) == head + rest;
        var j :| 0 <= j < |head + rest| && (head + rest)[j].Text?;
        assert j >= |head|;
        assert rest[j - |head|].Text?;
        StripFindsText(cs[1..]);
        var k :| 0 <= k < |cs[1..]| && cs[1..][k].Text? && !IsBlank(cs[1..][k].content);
        assert cs[k + 1] == cs[1..][k];
      }
    }
  }

  // ---------------------------------------------------------------------------
  // Step 2: stamp every element, in document order, with a fresh id, its path and its has-text flag.

  /** The positional path of a node, computed from the document and the node's position in it. */
  type PathOf = (seq<Node>, seq<nat>) -> string

  /** SetAttributeValue three times: the reserved names overwrite user attributes of the same name. */
  function Stamp(attrs: map<string, string>, id: string, path: string, hasText: bool): (r: map<string, string>)
    ensures r.Keys == attrs.Keys + {NodeIdKey, XPathKey, HasTextKey}
    ensures r[NodeIdKey] == id && r[XPathKey] == path && r[HasTextKey] == FlagText(hasText)
    ensures forall k :: k in attrs && k != NodeIdKey && k != XPathKey && k != HasTextKey ==> r[k] == attrs[k]
  {
    attrs[NodeIdKey := id][XPathKey := path][HasTextKey := FlagText(hasText)]
  }

  /**
   The forest with every attribute map emptied: what is left is the tree structure
   itself, with tags, text, comments and the place of every node.
   */
  function Shape(f: seq<Node>): seq<Node>
    decreases f
  {
    if f == [] then []
    else (if f[0].Element? then [Element(f[0].tag, map[], Shape(f[0].children))] else [f[0]]) + Shape(f[1..])
  }

  lemma {:induction false} ShapeAppend(a: seq<Node>, b: seq<Node>)
    ensures Shape(a + b) == Shape(a) + Shape(b)
    decreases |a|
  {
    if a == [] {
      assert a + b == b;
    } else {
      assert (a + b)[0] == a[0] && (a + b)[1..] == a[1..] + b;
      ShapeAppend(a[1..], b);
    }
  }

  /**
   Stamps the elements of f, which sits below position `prefix` of `doc` with its
   first node at child index `start`, drawing ids from the counter `next`.
   Returns the stamped forest and the counter afterwards.
   */
  function Annotate(f: seq<Node>, doc: seq<Node>, xpath: PathOf, prefix: seq<nat>, start: nat, next: nat): (r: (seq<Node>, nat))
    ensures r.1 == next + |Elements(f)|
    ensures |r.0| == |f|
    ensures forall i :: 0 <= i < |f| ==> (r.0[i].Element? <==> f[i].Element?) && (!f[i].Element? ==> r.0[i] == f[i])
    ensures Shape(r.0) == Shape(f)
  {
    if f == [] then ([], next)
    else if f[0].Element? then
      var here := prefix + [start];
      var inner := Annotate(f[0].children, doc, xpath, here, 0, next + 1);
      var stamped := Stamp(f[0].attrs, NodeIds.IdText(next), xpath(doc, here), HasTextChild(f[0].children));
      var rest := Annotate(f[1..], doc, xpath, prefix, start + 1, inner.1);
      var head := Element(f[0].tag, stamped, inner.0);
      ShapeAppend([head], rest.0);
      assert Shape([head]) == [Element(f[0].tag, map[], Shape(f[0].children))];
      ([head] + rest.0, rest.1)
    else
      var rest := Annotate(f[1..], doc, xpath, prefix, start + 1, next);
      ShapeAppend([f[0]], rest.0);
      assert Shape([f[0]]) == [f[0]];
      ([f[0]] + rest.0, rest.1)
  }

  /** Annotation keeps the top-level elements and their kinds, so whether a node has a text child does not change. */
  lemma AnnotateKeepsKinds(f: seq<Node>, doc: seq<Node>, xpath: PathOf, prefix: seq<nat>, start: nat, next: nat)
    ensures var a := Annotate(f, doc, xpath, prefix, start, next).0;
      |Roots(a)| == |Roots(f)| && (HasTextChild(a) <==> HasTextChild(f))
  {
    var a := Annotate(f, doc, xpath, prefix, start, next).0;
    RootsKind(a, f);
    if HasTextChild(f) {
      var i :| 0 <= i < |f| && f[i].Text?;
      assert a[i].Text?;
    }
  }

  /** Two forests whose nodes are elements at the same places have the same number of top-level elements. */
  lemma {:induction false} RootsKind(a: seq<Node>, f: seq<Node>)
    requires |a| == |f| && forall i :: 0 <= i < |f| ==> (a[i].Element? <==> f[i].Element?)
    ensures |Roots(a)| == |Roots(f)|
    decreases |f|
  {
    if f != [] {
      RootsKind(a[1..], f[1..]);
    }
  }

  /**
   es are the stamped counterparts of the visited elements vs, the i-th one
   carrying id number next + i.
   */
  predicate StampedAs(es: seq<Node>, vs: seq<Visit>, doc: seq<Node>, xpath: PathOf, next: nat) {
    |es| == |vs| && forall i :: 0 <= i < |vs| ==> StampedOne(es[i], vs[i], doc, xpath, next + i)
  }

  /** e is the visited element v stamped with id number n. */
  predicate StampedOne(e: Node, v: Visit, doc: seq<Node>, xpath: PathOf, n: nat) {
    e.Element? && v.node.Element? &&
    e.tag == v.node.tag &&
    e.attrs == Stamp(v.node.attrs, NodeIds.IdText(n), xpath(doc, v.pos), HasTextChild(v.node.children))
  }

  /**
   The i-th element of the annotated forest is the i-th element of the input with
   id number next + i, the path of its position at annotation time, and a has-text
   flag read from its children at annotation time.
   */
  lemma {:induction false} AnnotateStamps(f: seq<Node>, doc: seq<Node>, xpath: PathOf, prefix: seq<nat>, start: nat, next: nat)
    ensures StampedAs(Elements(Annotate(f, doc, xpath, prefix, start, next).0), Visits(f, prefix, start), doc, xpath, next)
    decreases f
  {
    if f != [] {
      if f[0].Element? {
        var here := prefix + [start];
        var inner := Annotate(f[0].children, doc, xpath, here, 0, next + 1);
        AnnotateStamps(f[0].children, doc, xpath, here, 0, next + 1);
        AnnotateStamps(f[1..], doc, xpath, prefix, start + 1, inner.1);
        AnnotateStampsElement(f, doc, xpath, prefix, start, next);
      } else {
        AnnotateStamps(f[1..], doc, xpath, prefix, start + 1, next);
        AnnotateStampsOther(f, doc, xpath, prefix, start, next);
      }
    }
  }

  /** The step of AnnotateStamps for a forest headed by an element, given the facts for its children and its siblings. */
  lemma AnnotateStampsElement(f: seq<Node>, doc: seq<Node>, xpath: PathOf, prefix: seq<nat>, start: nat, next: nat)
    requires f != [] && f[0].Element?
    requires StampedAs(Elements(Annotate(f[0].children, doc, xpath, prefix + [start], 0, next + 1).0),
      Visits(f[0].children, prefix + [start], 0), doc, xpath, next + 1)
    requires StampedAs(Elements(Annotate(f[1..], doc, xpath, prefix, start + 1,
        Annotate(f[0].children, doc, xpath, prefix + [start], 0, next + 1).1).0),
      Visits(f[1..], prefix, start + 1), doc, xpath, Annotate(f[0].children, doc, xpath, prefix + [start], 0, next + 1).1)
    ensures StampedAs(Elements(Annotate(f, doc, xpath, prefix, start, next).0), Visits(f, prefix, start), doc, xpath, next)
  {
    var here := prefix + [start];
    var inner := Annotate(f[0].children, doc, xpath, here, 0, next + 1);
    var head := Element(f[0].tag, Stamp(f[0].attrs, NodeIds.IdText(next), xpath(doc, here), HasTextChild(f[0].children)), inner.0);
    AnnotateElementsHead(f, doc, xpath, prefix, start, next);
    VisitsHead(f, prefix, start);
    StampedConcat(head, f[0], Elements(inner.0), Visits(f[0].children, here, 0),
      Elements(Annotate(f[1..], doc, xpath, prefix, start + 1, inner.1).0), Visits(f[1..], prefix, start + 1),
      doc, xpath, here, next, inner.1);
  }

  /** The elements of an annotated forest headed by an element: its stamped self, its descendants, its siblings' elements. */
  lemma AnnotateElementsHead(f: seq<Node>, doc: seq<Node>, xpath: PathOf, prefix: seq<nat>, start: nat, next: nat)
    requires f != [] && f[0].Element?
    ensures var inner := Annotate(f[0].children, doc, xpath, prefix + [start], 0, next + 1);
      Elements(Annotate(f, doc, xpath, prefix, start, next).0) ==
        [Element(f[0].tag, Stamp(f[0].attrs, NodeIds.IdText(next), xpath(doc, prefix + [start]), HasTextChild(f[0].children)), inner.0)] +
        Elements(inner.0) + Elements(Annotate(f[1..], doc, xpath, prefix, start + 1, inner.1).0)
  {
    var here := prefix + [start];
    var inner := Annotate(f[0].children, doc, xpath, here, 0, next + 1);
    var head := Element(f[0].tag, Stamp(f[0].attrs, NodeIds.IdText(next), xpath(doc, here), HasTextChild(f[0].children)), inner.0);
    var rest := Annotate(f[1..], doc, xpath, prefix, start + 1, inner.1);
    assert Annotate(f, doc, xpath, prefix, start, next).0 == [head] + rest.0;
    ElementsAppend([head], rest.0);
    assert Elements([head]) == [head] + Elements(inner.0);
  }

  /** The visits of a forest headed by an element: the element, its descendants, then its siblings. */
  lemma VisitsHead(f: seq<Node>, prefix: seq<nat>, start: nat)
    requires f != [] && f[0].Element?
    ensures Visits(f, prefix, start) ==
      [Visit(prefix + [start], f[0])] + Visits(f[0].children, prefix + [start], 0) + Visits(f[1..], prefix, start + 1)
  {
  }

  /**
   An element stamped with id number next, then its stamped descendants drawing
   from next + 1, then its stamped siblings drawing from where the descendants stopped.
   */
  lemma StampedConcat(head: Node, e: Node, es: seq<Node>, vs: seq<Visit>, rs: seq<Node>, vrs: seq<Visit>,
                      doc: seq<Node>, xpath: PathOf, here: seq<nat>, next: nat, after: nat)
    requires e.Element? && head.Element?
    requires head.tag == e.tag && head.attrs == Stamp(e.attrs, NodeIds.IdText(next), xpath(doc, here), HasTextChild(e.children))
    requires StampedAs(es, vs, doc, xpath, next + 1)
    requires StampedAs(rs, vrs, doc, xpath, after) && after == next + 1 + |vs|
    ensures StampedAs([head] + es + rs, [Visit(here, e)] + vs + vrs, doc, xpath, next)
  {
    var ns := [head] + es + rs;
    var ws := [Visit(here, e)] + vs + vrs;
    forall i | 0 <= i < |ws|
      ensures StampedOne(ns[i], ws[i], doc, xpath, next + i)
    {
      if i == 0 {
        assert ns[0] == head && ws[0] == Visit(here, e);
      } else if i <= |vs| {
        assert ns[i] == es[i - 1] && ws[i] == vs[i - 1];
        assert StampedOne(es[i - 1], vs[i - 1], doc, xpath, next + 1 + (i - 1));
      } else {
        assert ns[i] == rs[i - 1 - |vs|] && ws[i] == vrs[i - 1 - |vs|];
        assert StampedOne(rs[i - 1 - |vs|], vrs[i - 1 - |vs|], doc, xpath, after + (i - 1 - |vs|));
      }
    }
  }

  /** The step of AnnotateStamps for a forest headed by a node that is not an element. */
  lemma AnnotateStampsOther(f: seq<Node>, doc: seq<Node>, xpath: PathOf, prefix: seq<nat>, start: nat, next: nat)
    requires f != [] && !f[0].Element?
    requires StampedAs(Elements(Annotate(f[1..], doc, xpath, prefix, start + 1, next).0), Visits(f[1..], prefix, start + 1), doc, xpath, next)
    ensures StampedAs(Elements(Annotate(f, doc, xpath, prefix, start, next).0), Visits(f, prefix, start), doc, xpath, next)
  {
    var rest := Annotate(f[1..], doc, xpath, prefix, start + 1, next);
    assert Annotate(f, doc, xpath, prefix, start, next).0 == [f[0]] + rest.0;
    ElementsAppend([f[0]], rest.0);
    assert Elements([f[0]]) == [];
    assert Visits(f, prefix, start) == Visits(f[1..], prefix, start + 1);
  }

  // ---------------------------------------------------------------------------
  // Step 3: remove every node that is not an element, at any depth.

  function Clean(f: seq<Node>): (r: seq<Node>)
    ensures ElementOnly(r)
    ensures |r| == |Roots(f)|
  {
    if f == [] then []
    else (if f[0].Element? then [Element(f[0].tag, f[0].attrs, Clean(f[0].children))] else []) + Clean(f[1..])
  }

  /** An element with its children cleaned; any other node is left as it is. */
  function CleanNode(e: Node): Node {
    if e.Element? then Element(e.tag, e.attrs, Clean(e.children)) else e
  }

  /** Cleaning keeps the element children of a node, in their relative order, with tags and attributes. */
  lemma {:induction false} CleanKeepsRoots(f: seq<Node>)
    ensures |Clean(f)| == |Roots(f)|
    ensures forall i :: 0 <= i < |Roots(f)| ==> Clean(f)[i] == CleanNode(Roots(f)[i])
    decreases |f|
  {
    if f != [] {
      CleanKeepsRoots(f[1..]);
    }
  }

  /** Cleaning keeps every element, in document order, with its tag and attributes. */
  lemma {:induction false} CleanKeepsElements(f: seq<Node>)
    ensures |Elements(Clean(f))| == |Elements(f)|
    ensures forall i :: 0 <= i < |Elements(f)| ==> Elements(Clean(f))[i] == CleanNode(Elements(f)[i])
    decreases f
  {
    if f != [] {
      CleanKeepsElements(f[1..]);
      assert Pointwise(Elements(Clean(f[1..])), Elements(f[1..]), CleanNode);
      if f[0].Element? {
        CleanKeepsElements(f[0].children);
        CleanElementsHead(f);
      } else {
        assert Clean(f) == Clean(f[1..]);
      }
    }
  }

  /** The element step of CleanKeepsElements: a cleaned head element followed by its cleaned subtree and the cleaned rest. */
  lemma CleanElementsHead(f: seq<Node>)
    requires f != [] && f[0].Element?
    requires Pointwise(Elements(Clean(f[0].children)), Elements(f[0].children), CleanNode)
    requires Pointwise(Elements(Clean(f[1..])), Elements(f[1..]), CleanNode)
    ensures Pointwise(Elements(Clean(f)), Elements(f), CleanNode)
  {
    var rest := Clean(f[1..]);
    var head := CleanNode(f[0]);
    var inner := Clean(f[0].children);
    assert Clean(f) == [head] + rest;
    ElementsAppend([head], rest);
    assert Elements([head]) == [head] + Elements(inner);
    assert Elements(f) == [f[0]] + Elements(f[0].children) + Elements(f[1..]);
    PointwiseConcat([head], [f[0]], Elements(inner), Elements(f[0].children), CleanNode);
    PointwiseConcat([head] + Elements(inner), [f[0]] + Elements(f[0].children), Elements(rest), Elements(f[1..]), CleanNode);
  }

  /** A forest of elements only is left as it is, so cleaning twice is cleaning once. */
  lemma {:induction false} CleanElementOnly(f: seq<Node>)
    requires ElementOnly(f)
    ensures Clean(f) == f
    decreases f
  {
    if f != [] {
      CleanElementOnly(f[0].children);
      CleanElementOnly(f[1..]);
    }
  }

  // ---------------------------------------------------------------------------
  // The whole normaliser.

  /** Cleaning commutes with forgetting the attributes. */
  lemma {:induction false} ShapeClean(f: seq<Node>)
    ensures Shape(Clean(f)) == Clean(Shape(f))
    decreases f
  {
    if f != [] {
      ShapeClean(f[1..]);
      var sf := Shape(f);
      if f[0].Element? {
        var head := Element(f[0].tag, f[0].attrs, Clean(f[0].children));
        ShapeClean(f[0].children);
        assert Clean(f) == [head] + Clean(f[1..]);
        ShapeAppend([head], Clean(f[1..]));
        assert Shape([head]) == [Element(f[0].tag, map[], Shape(Clean(f[0].children)))];
        assert sf[0] == Element(f[0].tag, map[], Shape(f[0].children)) && sf[1..] == Shape(f[1..]);
      } else {
        assert Clean(f) == Clean(f[1..]);
        assert sf[0] == f[0] && sf[1..] == Shape(f[1..]);
      }
    }
  }

  /** The forest the strict re-parse is asked about, and the id counter after annotating it. */
  function Candidate(parsed: seq<Node>, xpath: PathOf, next: nat): (r: (seq<Node>, nat))
    ensures ElementOnly(r.0)
    ensures r.1 == next + |Elements(parsed)|
    ensures |Roots(r.0)| == |Roots(parsed)|
  {
    var stripped := StripBlankText(parsed);
    StripKeepsElements(parsed);
    StripKeepsRoots(parsed);
    var (annotated, after) := Annotate(stripped, stripped, xpath, [], 0, next);
    AnnotateKeepsKinds(stripped, stripped, xpath, [], 0, next);
    ElementOnlyRoots(Clean(annotated));
    (Clean(annotated), after)
  }

  /**
   Apart from attributes, the tree handed to the strict re-parse is the parsed
   document with blank text and then every non-element node removed: annotation
   moves no node and drops no child.
   */
  lemma CandidateShape(parsed: seq<Node>, xpath: PathOf, next: nat)
    ensures Shape(Candidate(parsed, xpath, next).0) == Shape(Clean(StripBlankText(parsed)))
  {
    var stripped := StripBlankText(parsed);
    var annotated := Annotate(stripped, stripped, xpath, [], 0, next).0;
    ShapeClean(annotated);
    ShapeClean(stripped);
  }

  /** In a forest of elements only, every node is a top-level element. */
  lemma {:induction false} ElementOnlyRoots(f: seq<Node>)
    requires ElementOnly(f)
    ensures Roots(f) == f
    decreases |f|
  {
    if f != [] {
      ElementOnlyRoots(f[1..]);
    }
  }

  /**
   Normalises one parsed document with ids drawn from `next`. The strict re-parse
   `accepts` decides whether the result is kept; ids are drawn either way.
   */
  function NormalizeDocument(parsed: seq<Node>, xpath: PathOf, accepts: seq<Node> -> bool, next: nat): (r: (Option<seq<Node>>, nat))
    ensures r.1 == next + |Elements(parsed)|
    ensures r.0.Some? <==> accepts(Candidate(parsed, xpath, next).0)
    ensures r.0.Some? ==> r.0.value == Candidate(parsed, xpath, next).0 && ElementOnly(r.0.value)
  {
    var (candidate, after) := Candidate(parsed, xpath, next);
    if accepts(candidate) then (Some(candidate), after) else (None, after)
  }

  /** Carries the reserved attributes the decomposer reads back, with a has-text value bool.Parse accepts. */
  predicate Annotated(e: Node) {
    e.Element? && NodeIdKey in e.attrs && XPathKey in e.attrs && HasTextKey in e.attrs &&
    e.attrs[HasTextKey] in {"True", "False"}
  }

  /**
   The normalised document keeps every element of the parsed one, in document
   order, with its tag and its attributes, plus: __nodeid the id for counter
   value next + i, __xpath the path of its position in the white-space-stripped
   document, and __hastext "True" exactly when it has a direct text child that is
   not white space only.
   */
  lemma NormalizedElements(parsed: seq<Node>, xpath: PathOf, next: nat)
    ensures var t := Candidate(parsed, xpath, next).0;
            var es := Elements(parsed);
            var stripped := StripBlankText(parsed);
            var vs := Visits(stripped, [], 0);
      |Elements(t)| == |es| == |vs| &&
      forall i :: 0 <= i < |es| ==>
        NodeAt(stripped, vs[i].pos) == Some(Elements(stripped)[i]) &&
        Elements(t)[i].tag == es[i].tag &&
        Elements(t)[i].attrs ==
          Stamp(es[i].attrs, NodeIds.IdText(next + i), xpath(stripped, vs[i].pos), HasNonBlankTextChild(es[i].children))
  {
    var es := Elements(parsed);
    var stripped := StripBlankText(parsed);
    var a := Annotate(stripped, stripped, xpath, [], 0, next).0;
    var vs := Visits(stripped, [], 0);
    StripKeepsElements(parsed);
    AnnotateStamps(stripped, stripped, xpath, [], 0, next);
    CleanKeepsElements(a);
    VisitsNodes(stripped, [], 0);
    VisitsLocate(stripped, [], 0);
    assert stripped[0..] == stripped;
    forall i | 0 <= i < |es|
      ensures HasTextChild(vs[i].node.children) == HasNonBlankTextChild(es[i].children)
      ensures vs[i].pos[0..] == vs[i].pos
    {
      StripTextChild(es[i].children);
    }
  }

  /** Every element of the list carries the reserved attributes. */
  predicate AllAnnotated(es: seq<Node>) {
    forall i :: 0 <= i < |es| ==> Annotated(es[i])
  }

  /** No two elements of the list carry the same id. */
  predicate DistinctIds(es: seq<Node>)
    requires AllAnnotated(es)
  {
    forall i, j :: 0 <= i < j < |es| ==> es[i].attrs[NodeIdKey] != es[j].attrs[NodeIdKey]
  }

  /** Every element of a normalised document is stamped, and the ids stamped on it are pairwise different. */
  lemma NormalizedIdsDistinct(parsed: seq<Node>, xpath: PathOf, next: nat)
    ensures AllAnnotated(Elements(Candidate(parsed, xpath, next).0))
    ensures DistinctIds(Elements(Candidate(parsed, xpath, next).0))
  {
    NormalizedElements(parsed, xpath, next);
    var es := Elements(Candidate(parsed, xpath, next).0);
    forall i, j | 0 <= i < j < |es|
      ensures es[i].attrs[NodeIdKey] != es[j].attrs[NodeIdKey]
    {
      NodeIds.IdTextInjective(next + i, next + j);
    }
  }
}

=== FILE: pipeline.dfy ===
/**
 One ingestion run over the three directories: download every manifest asset
 into the asset directory, normalise every downloaded asset into a stamped tree
 in the JSON directory, and write the five relations into the CSV directory.
 Every phase writes an output only when none of that name exists yet, so a run
 never replaces anything. A second run over the same manifest writes nothing,
 provided the directories meet Valid and the strict re-parse ignores id values
 (IdBlind).
 */
module Pipeline {
  import opened Wrappers
  import opened Markup
  import NodeIds
  import opened Normalize
  import opened Records
  import opened Stores
  import opened Decompose

  /**
   What a run calls but does not define: fetching an object's text from a bucket,
   the tolerant markup parser, the path syntax of an element position, and the
   strict re-parse that decides whether a normalised tree is kept.
   */
  datatype Env = Env(
    fetch: (string, string) -> string,
    parse: string -> seq<Node>,
    xpath: PathOf,
    accepts: seq<Node> -> bool)

  /** The content of a file of the CSV directory. */
  datatype Table =
    | FilesCsv(files: seq<FileRow>)
    | NodesCsv(nodes: seq<NodeRow>)
    | AttributesCsv(attributes: set<AttributeRow>)
    | NodeAttributesCsv(nodeAttributes: multiset<NodeAttributeRow>)
    | NodeParentCsv(nodeParents: seq<NodeParentRow>)

  /**
   The three directories, and the next value of the id counter that stands for
   Guid.NewGuid: every id is drawn once and the counter never goes back.
   */
  datatype World = World(assets: Store<Asset>, trees: Trees, tables: Store<Table>, nextId: nat)

  const FilesName := "files.csv"
  const NodesName := "nodes.csv"
  const AttributesName := "attributes.csv"
  const NodeAttributesName := "nodeAttributes.csv"
  const NodeParentName := "nodeParent.csv"

  const CsvNames: set<string> := {FilesName, NodesName, AttributesName, NodeAttributesName, NodeParentName}

  // ---------------------------------------------------------------------------
  // Invariants of the directories.

  /** Every asset file is named by the asset id it holds. */
  predicate NamedById(assets: Store<Asset>) {
    forall i :: 0 <= i < |assets| ==> assets[i].name == assets[i].content.assetId
  }

  /** What the normaliser persists: element-only trees whose every element carries the reserved attributes. */
  predicate Persisted(trees: Trees) {
    forall i :: 0 <= i < |trees| ==> ElementOnly(trees[i].content) && AllAnnotated(Elements(trees[i].content))
  }

  /** The ids of a list of annotated elements, in order. */
  function ElementIds(es: seq<Node>): (ids: seq<string>)
    requires AllAnnotated(es)
    ensures |ids| == |es| && forall i :: 0 <= i < |es| ==> ids[i] == es[i].attrs[NodeIdKey]
  {
    seq(|es|, i requires 0 <= i < |es| && AllAnnotated(es) => es[i].attrs[NodeIdKey])
  }

  /** Every node id of the JSON directory, in listing and document order. */
  function StoreIds(trees: Trees): seq<string>
    requires Persisted(trees)
    decreases |trees|
  {
    if trees == [] then []
    else StoreIds(trees[..|trees| - 1]) + ElementIds(Elements(trees[|trees| - 1].content))
  }

  /** No id occurs twice in the JSON directory, and no id the counter has yet to draw occurs at all. */
  ghost predicate Fresh(trees: Trees, next: nat) {
    Persisted(trees) &&
    (forall i, j :: 0 <= i < j < |StoreIds(trees)| ==> StoreIds(trees)[i] != StoreIds(trees)[j]) &&
    (forall n: nat :: next <= n ==> NodeIds.IdText(n) !in StoreIds(trees))
  }

  /** The invariant of the directories between runs. */
  ghost predicate Valid(w: World) {
    UniqueNames(w.assets) && NamedById(w.assets) &&
    UniqueNames(w.trees) && Names(w.trees) <= Names(w.assets) && Fresh(w.trees, w.nextId) &&
    UniqueNames(w.tables) && Names(w.tables) <= CsvNames
  }

  /** The directories are empty before the first run. */
  lemma EmptyValid(next: nat)
    ensures Valid(World([], [], [], next))
  {
    assert StoreIds([]) == [];
  }

  /** A persisted tree is readable by every decomposer. */
  lemma {:induction false} PersistedReadable(trees: Trees)
    requires Persisted(trees)
    ensures StoreNodesReadable(trees) && StoreAttributesReadable(trees) && StoreParentsReadable(trees)
  {
    assert LowerAscii("True") == "true";
    assert LowerAscii("False") == "false";
    forall i | 0 <= i < |trees|
      ensures ParentsReadable(trees[i].content, false)
    {
      IdsParentsReadable(trees[i].content, false);
    }
  }

  /** The direct element children of an element of a forest are elements of that forest too. */
  lemma {:induction false} ElementsBelow(f: seq<Node>, i: nat)
    requires i < |f| && f[i].Element?
    ensures f[i] in Elements(f)
    ensures forall e :: e in Elements(f[i].children) ==> e in Elements(f)
    decreases |f|
  {
    if i > 0 {
      ElementsBelow(f[1..], i - 1);
      assert f[1..][i - 1] == f[i];
    }
  }

  /** A forest whose every element carries an id satisfies what nodeParent.csv reads. */
  lemma {:induction false} IdsParentsReadable(f: seq<Node>, nested: bool)
    requires forall e :: e in Elements(f) ==> NodeIdKey in e.attrs
    ensures ParentsReadable(f, nested)
    decreases f
  {
    forall i | 0 <= i < |f| && f[i].Element?
      ensures NodeIdKey in f[i].attrs && ParentsReadable(f[i].children, true)
    {
      ElementsBelow(f, i);
      IdsParentsReadable(f[i].children, true);
    }
  }

  /** The elements of a normalised tree carry the ids next, next + 1, ... in document order. */
  lemma CandidateIds(parsed: seq<Node>, xpath: PathOf, next: nat)
    ensures AllAnnotated(Elements(Candidate(parsed, xpath, next).0))
    ensures |Elements(Candidate(parsed, xpath, next).0)| == |Elements(parsed)|
    ensures forall i :: 0 <= i < |Elements(parsed)| ==>
      Elements(Candidate(parsed, xpath, next).0)[i].attrs[NodeIdKey] == NodeIds.IdText(next + i)
  {
    NormalizedElements(parsed, xpath, next);
    NormalizedIdsDistinct(parsed, xpath, next);
  }

  /**
   Storing a tree whose ids are drawn from the counter at next keeps the ids of the
   JSON directory fresh, with the counter moved past the drawn ids.
   */
  lemma FreshAppend(trees: Trees, name: string, t: seq<Node>, next: nat, count: nat)
    requires Fresh(trees, next)
    requires ElementOnly(t) && AllAnnotated(Elements(t)) && |Elements(t)| == count
    requires forall i :: 0 <= i < count ==> Elements(t)[i].attrs[NodeIdKey] == NodeIds.IdText(next + i)
    ensures Fresh(trees + [Entry(name, t)], next + count)
  {
    var s := trees + [Entry(name, t)];
    assert s[..|s| - 1] == trees;
    assert Persisted(s) by {
      forall i | 0 <= i < |s| ensures ElementOnly(s[i].content) && AllAnnotated(Elements(s[i].content)) {
        if i < |trees| { assert s[i] == trees[i]; }
      }
    }
    var before := StoreIds(trees);
    var drawn := ElementIds(Elements(t));
    var all := StoreIds(s);
    assert all == before + drawn;
    forall i, j | 0 <= i < j < |all| ensures all[i] != all[j] {
      if j >= |before| {
        assert all[j] == NodeIds.IdText(next + (j - |before|));
        if i >= |before| {
          assert all[i] == NodeIds.IdText(next + (i - |before|));
          NodeIds.IdTextInjective(next + (i - |before|), next + (j - |before|));
        } else {
          assert all[i] == before[i];
        }
      }
    }
    forall n: nat | next + count <= n ensures NodeIds.IdText(n) !in all {
      assert NodeIds.IdText(n) !in before;
      if NodeIds.IdText(n) in drawn {
        var k :| 0 <= k < |drawn| && drawn[k] == NodeIds.IdText(n);
        NodeIds.IdTextInjective(n, next + k);
      }
    }
  }

  /** Drawing ids without storing them keeps the ids fresh. */
  lemma FreshLater(trees: Trees, next: nat, later: nat)
    requires Fresh(trees, next) && next <= later
    ensures Fresh(trees, later)
  {
  }

  /** The nodes.csv row ids are the ids of the JSON directory, in the same order. */
  lemma {:induction false} NodesTableIds(trees: Trees)
    requires Persisted(trees)
    ensures StoreNodesReadable(trees)
    ensures |NodesTable(trees)| == |StoreIds(trees)|
    ensures forall i :: 0 <= i < |StoreIds(trees)| ==> NodesTable(trees)[i].nodeId == StoreIds(trees)[i]
    decreases |trees|
  {
    PersistedReadable(trees);
    if trees != [] {
      var init := trees[..|trees| - 1];
      var last := trees[|trees| - 1];
      assert Persisted(init) by {
        forall i | 0 <= i < |init| ensures init[i] == trees[i] { }
      }
      NodesTableIds(init);
      var rows := NodeRows(last.name, last.content);
      var ids := ElementIds(Elements(last.content));
      forall i | 0 <= i < |StoreIds(trees)| ensures NodesTable(trees)[i].nodeId == StoreIds(trees)[i] {
        if i >= |StoreIds(init)| {
          assert NodesTable(trees)[i] == rows[i - |StoreIds(init)|];
          assert StoreIds(trees)[i] == ids[i - |StoreIds(init)|];
        } else {
          assert NodesTable(trees)[i] == NodesTable(init)[i];
          assert StoreIds(trees)[i] == StoreIds(init)[i];
        }
      }
    }
  }

  /** Across the whole nodes.csv relation no node id occurs twice. */
  lemma NodeIdsUnique(w: World)
    requires Valid(w)
    ensures StoreNodesReadable(w.trees)
    ensures forall i, j :: 0 <= i < j < |NodesTable(w.trees)| ==> NodesTable(w.trees)[i].nodeId != NodesTable(w.trees)[j].nodeId
  {
    NodesTableIds(w.trees);
  }

  // ---------------------------------------------------------------------------
  // Phase 1: download the manifest's assets.

  /** The asset ids a manifest names. */
  function ManifestIds(manifest: seq<ManifestEntry>): set<string> {
    set j | 0 <= j < |manifest| :: manifest[j].assetId
  }

  /** The asset file written for a manifest row: the row with the object's text. */
  function Fetched(e: ManifestEntry, fetch: (string, string) -> string): Asset {
    Asset(e.assetId, e.bucketName, e.key, fetch(e.bucketName, e.key))
  }

  /** An asset file as the download writes it for some row of the manifest. */
  ghost predicate FromManifest(e: Entry<Asset>, manifest: seq<ManifestEntry>, fetch: (string, string) -> string) {
    exists j :: 0 <= j < |manifest| && e == Entry(manifest[j].assetId, Fetched(manifest[j], fetch))
  }

  /**
   Downloads the manifest's rows in order into the asset directory, skipping every
   row whose asset file already exists.
   */
  function Download(assets: Store<Asset>, manifest: seq<ManifestEntry>, fetch: (string, string) -> string): (r: Store<Asset>)
    ensures |assets| <= |r| && r[..|assets|] == assets
    ensures Names(r) == Names(assets) + ManifestIds(manifest)
    ensures forall i :: |assets| <= i < |r| ==> FromManifest(r[i], manifest, fetch)
    ensures UniqueNames(assets) ==> UniqueNames(r)
    decreases |manifest|
  {
    if manifest == [] then assets
    else
      var e := manifest[0];
      var a := PutIfAbsent(assets, e.assetId, Fetched(e, fetch)).0;
      var r := Download(a, manifest[1..], fetch);
      ManifestIdsCons(manifest);
      assert r[..|assets|] == a[..|assets|];
      assert forall i :: |assets| <= i < |r| ==> FromManifest(r[i], manifest, fetch) by {
        forall i | |assets| <= i < |r| ensures FromManifest(r[i], manifest, fetch) {
          if i < |a| {
            assert r[i] == a[i] == Entry(manifest[0].assetId, Fetched(manifest[0], fetch));
          } else {
            var j :| 0 <= j < |manifest[1..]| && r[i] == Entry(manifest[1..][j].assetId, Fetched(manifest[1..][j], fetch));
            assert manifest[1..][j] == manifest[j + 1];
          }
        }
      }
      r
  }

  lemma ManifestIdsCons(manifest: seq<ManifestEntry>)
    requires manifest != []
    ensures ManifestIds(manifest) == {manifest[0].assetId} + ManifestIds(manifest[1..])
  {
    forall x | x in ManifestIds(manifest) ensures x in {manifest[0].assetId} + ManifestIds(manifest[1..]) {
      var j :| 0 <= j < |manifest| && manifest[j].assetId == x;
      if j > 0 { assert manifest[1..][j - 1].assetId == x; }
    }
  }

  /** Every asset file the download writes is named by the asset id it holds. */
  lemma DownloadNamedById(assets: Store<Asset>, manifest: seq<ManifestEntry>, fetch: (string, string) -> string)
    requires NamedById(assets)
    ensures NamedById(Download(assets, manifest, fetch))
  {
    var r := Download(assets, manifest, fetch);
    forall i | 0 <= i < |r| ensures r[i].name == r[i].content.assetId {
      if i < |assets| {
        assert r[i] == r[..|assets|][i];
      } else {
        assert FromManifest(r[i], manifest, fetch);
      }
    }
  }

  // ---------------------------------------------------------------------------
  // Phase 2: normalise the downloaded assets.

  /** The normalisation phase's outcome: the JSON directory, the counter, and the names rejected, in order. */
  datatype Normalized = Normalized(trees: Trees, next: nat, failed: seq<string>)

  /** The tree made of an asset's text with ids drawn from next, if the strict re-parse accepts it. */
  function NormalizeAsset(a: Asset, env: Env, next: nat): (r: (Option<seq<Node>>, nat)) {
    NormalizeDocument(env.parse(a.content), env.xpath, env.accepts, next)
  }

  /** The strict re-parse rejects the tree made of the asset for some counter value. */
  ghost predicate Rejected(a: Asset, env: Env) {
    exists n: nat :: !env.accepts(Candidate(env.parse(a.content), env.xpath, n).0)
  }

  /** The strict re-parse rejects the tree made of the asset whatever ids it carries. */
  ghost predicate AlwaysRejected(a: Asset, env: Env) {
    forall n: nat :: !env.accepts(Candidate(env.parse(a.content), env.xpath, n).0)
  }

  /**
   The strict re-parse does not look at the id values: whether it accepts a tree
   does not depend on where the counter stood when the tree was stamped.
   */
  ghost predicate IdBlind(env: Env) {
    forall p: seq<Node>, n: nat :: env.accepts(Candidate(p, env.xpath, n).0) == env.accepts(Candidate(p, env.xpath, 0).0)
  }

  /** t is a tree made of the asset's text and accepted by the strict re-parse. */
  ghost predicate NormalizedFrom(t: seq<Node>, a: Asset, env: Env) {
    exists n: nat :: t == Candidate(env.parse(a.content), env.xpath, n).0 && env.accepts(t)
  }

  /** A JSON file as the normaliser writes it for some asset file of the listing, under the same name. */
  ghost predicate FromListing(e: Entry<seq<Node>>, listing: Store<Asset>, env: Env) {
    exists j :: 0 <= j < |listing| && listing[j].name == e.name && NormalizedFrom(e.content, listing[j].content, env)
  }

  /**
   Normalises the asset files of the listing in order into the JSON directory,
   skipping every asset whose JSON file already exists and recording every asset
   whose tree the strict re-parse rejects.
   */
  function NormalizeAll(listing: Store<Asset>, trees: Trees, next: nat, env: Env): (r: Normalized)
    ensures |trees| <= |r.trees| && r.trees[..|trees|] == trees
    ensures next <= r.next
    ensures UniqueNames(trees) ==> UniqueNames(r.trees)
    decreases |listing|
  {
    if listing == [] then Normalized(trees, next, [])
    else
      var a := listing[0];
      if a.name in Names(trees) then NormalizeAll(listing[1..], trees, next, env)
      else
        var made := NormalizeAsset(a.content, env, next);
        if made.0.Some? then
          var t := trees + [Entry(a.name, made.0.value)];
          assert t[..|trees|] == trees;
          LookupAppend(trees, Entry(a.name, made.0.value));
          NormalizeAll(listing[1..], t, made.1, env)
        else
          var r := NormalizeAll(listing[1..], trees, made.1, env);
          Normalized(r.trees, r.next, [a.name] + r.failed)
  }

  lemma NamesCons<T>(s: Store<T>)
    requires s != []
    ensures Names(s) == {s[0].name} + Names(s[1..])
  {
    forall x | x in Names(s) ensures x in {s[0].name} + Names(s[1..]) {
      var j :| 0 <= j < |s| && s[j].name == x;
      if j > 0 { assert s[1..][j - 1].name == x; }
    }
  }

  /** An entry of a prefix of a store is an entry of the store. */
  lemma PrefixNames<T>(s: Store<T>, t: Store<T>)
    requires |s| <= |t| && t[..|s|] == s
    ensures Names(s) <= Names(t)
  {
    forall x | x in Names(s) ensures x in Names(t) {
      var i :| 0 <= i < |s| && s[i].name == x;
      assert t[i] == s[i];
    }
  }

  /** The phase writes JSON files only under names of the listing. */
  lemma {:induction false} NormalizeAllNames(listing: Store<Asset>, trees: Trees, next: nat, env: Env)
    ensures Names(NormalizeAll(listing, trees, next, env).trees) <= Names(trees) + Names(listing)
    decreases |listing|
  {
    if listing != [] {
      var a := listing[0];
      NamesCons(listing);
      if a.name in Names(trees) {
        NormalizeAllNames(listing[1..], trees, next, env);
      } else {
        var made := NormalizeAsset(a.content, env, next);
        if made.0.Some? {
          LookupAppend(trees, Entry(a.name, made.0.value));
          NormalizeAllNames(listing[1..], trees + [Entry(a.name, made.0.value)], made.1, env);
        } else {
          NormalizeAllNames(listing[1..], trees, made.1, env);
        }
      }
    }
  }

  /** Every JSON file the phase writes is the accepted tree of an asset file of the same name. */
  lemma {:induction false} NormalizeAllSources(listing: Store<Asset>, trees: Trees, next: nat, env: Env)
    ensures forall i :: |trees| <= i < |NormalizeAll(listing, trees, next, env).trees| ==>
      FromListing(NormalizeAll(listing, trees, next, env).trees[i], listing, env)
    decreases |listing|
  {
    var r := NormalizeAll(listing, trees, next, env);
    if listing != [] {
      var a := listing[0];
      if a.name in Names(trees) {
        NormalizeAllSources(listing[1..], trees, next, env);
        assert r == NormalizeAll(listing[1..], trees, next, env);
        LiftListing(r.trees, |trees|, listing, env);
      } else {
        var made := NormalizeAsset(a.content, env, next);
        if made.0.Some? {
          var t := trees + [Entry(a.name, made.0.value)];
          NormalizeAllSources(listing[1..], t, made.1, env);
          assert r == NormalizeAll(listing[1..], t, made.1, env);
          assert r.trees[|trees|] == r.trees[..|t|][|trees|] == t[|trees|];
          assert FromListing(r.trees[|trees|], listing, env) by {
            assert NormalizedFrom(made.0.value, a.content, env);
          }
          LiftListing(r.trees, |t|, listing, env);
        } else {
          NormalizeAllSources(listing[1..], trees, made.1, env);
          assert r.trees == NormalizeAll(listing[1..], trees, made.1, env).trees;
          LiftListing(r.trees, |trees|, listing, env);
        }
      }
    }
  }

  /**
   After the phase every asset file of the listing has a JSON file or was rejected
   and recorded as failed, and a recorded name had no JSON file before the phase.
   */
  lemma {:induction false} NormalizeAllCovers(listing: Store<Asset>, trees: Trees, next: nat, env: Env)
    ensures forall j :: 0 <= j < |listing| ==>
      listing[j].name in Names(NormalizeAll(listing, trees, next, env).trees) || Rejected(listing[j].content, env)
    ensures forall j :: 0 <= j < |listing| ==>
      listing[j].name in Names(NormalizeAll(listing, trees, next, env).trees) ||
      listing[j].name in NormalizeAll(listing, trees, next, env).failed
    ensures forall k :: k in NormalizeAll(listing, trees, next, env).failed ==> k in Names(listing) && k !in Names(trees)
    decreases |listing|
  {
    var r := NormalizeAll(listing, trees, next, env);
    if listing != [] {
      var a := listing[0];
      NamesCons(listing);
      if a.name in Names(trees) {
        NormalizeAllCovers(listing[1..], trees, next, env);
        PrefixNames(trees, r.trees);
        forall j | 1 <= j < |listing| ensures listing[j] == listing[1..][j - 1] { }
      } else {
        var made := NormalizeAsset(a.content, env, next);
        if made.0.Some? {
          var t := trees + [Entry(a.name, made.0.value)];
          LookupAppend(trees, Entry(a.name, made.0.value));
          NormalizeAllCovers(listing[1..], t, made.1, env);
          PrefixNames(t, r.trees);
          forall j | 1 <= j < |listing| ensures listing[j] == listing[1..][j - 1] { }
        } else {
          var rest := NormalizeAll(listing[1..], trees, made.1, env);
          NormalizeAllCovers(listing[1..], trees, made.1, env);
          assert Rejected(a.content, env) by {
            assert !env.accepts(Candidate(env.parse(a.content.content), env.xpath, next).0);
          }
          forall j | 1 <= j < |listing| ensures listing[j] == listing[1..][j - 1] { }
        }
      }
    }
  }
  /** A rejected asset gets no JSON file: with a listing of distinct names, no recorded name is stored. */
  lemma {:induction false} NormalizeAllFailedUnstored(listing: Store<Asset>, trees: Trees, next: nat, env: Env)
    requires UniqueNames(listing)
    ensures forall k :: k in NormalizeAll(listing, trees, next, env).failed ==> k !in Names(NormalizeAll(listing, trees, next, env).trees)
    decreases |listing|
  {
    if listing != [] {
      var a := listing[0];
      assert UniqueNames(listing[1..]) by {
        forall i, j | 0 <= i < j < |listing[1..]| ensures listing[1..][i].name != listing[1..][j].name {
          assert listing[1..][i] == listing[i + 1] && listing[1..][j] == listing[j + 1];
        }
      }
      if a.name !in Names(trees) {
        var made := NormalizeAsset(a.content, env, next);
        if made.0.Some? {
          NormalizeAllFailedUnstored(listing[1..], trees + [Entry(a.name, made.0.value)], made.1, env);
        } else {
          NormalizeAllFailedUnstored(listing[1..], trees, made.1, env);
          NormalizeAllNames(listing[1..], trees, made.1, env);
          assert a.name !in Names(listing[1..]) by {
            forall j | 0 <= j < |listing[1..]| ensures listing[1..][j].name != a.name {
              assert listing[1..][j] == listing[j + 1];
            }
          }
        }
      } else {
        NormalizeAllFailedUnstored(listing[1..], trees, next, env);
      }
    }
  }

  /** The phase keeps the ids of the JSON directory fresh: every stored id is drawn once, before the final counter. */
  lemma {:induction false} NormalizeAllFresh(listing: Store<Asset>, trees: Trees, next: nat, env: Env)
    requires Fresh(trees, next)
    ensures Fresh(NormalizeAll(listing, trees, next, env).trees, NormalizeAll(listing, trees, next, env).next)
    decreases |listing|
  {
    if listing != [] {
      var a := listing[0];
      if a.name in Names(trees) {
        NormalizeAllFresh(listing[1..], trees, next, env);
      } else {
        var made := NormalizeAsset(a.content, env, next);
        var parsed := env.parse(a.content.content);
        if made.0.Some? {
          CandidateIds(parsed, env.xpath, next);
          FreshAppend(trees, a.name, made.0.value, next, |Elements(parsed)|);
          NormalizeAllFresh(listing[1..], trees + [Entry(a.name, made.0.value)], made.1, env);
        } else {
          FreshLater(trees, next, made.1);
          NormalizeAllFresh(listing[1..], trees, made.1, env);
        }
      }
    }
  }

  /** When every asset without a JSON file is rejected whatever its ids, the phase writes nothing. */
  lemma {:induction false} NormalizeAllStable(listing: Store<Asset>, trees: Trees, next: nat, env: Env)
    requires forall j :: 0 <= j < |listing| ==> listing[j].name in Names(trees) || AlwaysRejected(listing[j].content, env)
    ensures NormalizeAll(listing, trees, next, env).trees == trees
    decreases |listing|
  {
    if listing != [] {
      var a := listing[0];
      forall j | 0 <= j < |listing[1..]| ensures listing[1..][j] == listing[j + 1] { }
      if a.name in Names(trees) {
        NormalizeAllStable(listing[1..], trees, next, env);
      } else {
        var made := NormalizeAsset(a.content, env, next);
        assert made.0.None? by {
          assert !env.accepts(Candidate(env.parse(a.content.content), env.xpath, next).0);
        }
        NormalizeAllStable(listing[1..], trees, made.1, env);
      }
    }
  }

  /** Every JSON file the phase writes is an accepted normalised tree, so the directory stays persisted. */
  lemma NormalizeAllPersisted(listing: Store<Asset>, trees: Trees, next: nat, env: Env)
    requires Persisted(trees)
    ensures Persisted(NormalizeAll(listing, trees, next, env).trees)
  {
    var r := NormalizeAll(listing, trees, next, env);
    NormalizeAllSources(listing, trees, next, env);
    forall i | 0 <= i < |r.trees| ensures ElementOnly(r.trees[i].content) && AllAnnotated(Elements(r.trees[i].content)) {
      if i < |trees| {
        assert r.trees[i] == r.trees[..|trees|][i];
      } else {
        var j :| 0 <= j < |listing| && listing[j].name == r.trees[i].name && NormalizedFrom(r.trees[i].content, listing[j].content, env);
        var n: nat :| r.trees[i].content == Candidate(env.parse(listing[j].content.content), env.xpath, n).0;
        CandidateIds(env.parse(listing[j].content.content), env.xpath, n);
      }
    }
  }

  /** What the rest of a listing produced, the whole listing produced. */
  lemma LiftListing(s: Trees, from: nat, listing: Store<Asset>, env: Env)
    requires listing != [] && from <= |s|
    requires forall i :: from <= i < |s| ==> FromListing(s[i], listing[1..], env)
    ensures forall i :: from <= i < |s| ==> FromListing(s[i], listing, env)
  {
    forall i | from <= i < |s| ensures FromListing(s[i], listing, env) {
      var j :| 0 <= j < |listing[1..]| && listing[1..][j].name == s[i].name && NormalizedFrom(s[i].content, listing[1..][j].content, env);
      assert listing[1..][j] == listing[j + 1];
    }
  }

  // ---------------------------------------------------------------------------
  // Phase 3: write the five relations.

  /** The five relations, in the order they are written, under their file names. */
  function Relations(assets: Store<Asset>, trees: Trees): (batch: seq<Entry<Table>>)
    requires StoreNodesReadable(trees) && StoreAttributesReadable(trees) && StoreParentsReadable(trees)
    ensures Names(batch) == CsvNames && UniqueNames(batch)
  {
    var batch := [
      Entry(FilesName, FilesCsv(FilesTable(assets))),
      Entry(NodesName, NodesCsv(NodesTable(trees))),
      Entry(AttributesName, AttributesCsv(AttributesTable(trees))),
      Entry(NodeAttributesName, NodeAttributesCsv(NodeAttributesTable(trees))),
      Entry(NodeParentName, NodeParentCsv(NodeParentTable(trees)))];
    assert batch[0].name == FilesName && batch[1].name == NodesName && batch[2].name == AttributesName;
    assert batch[3].name == NodeAttributesName && batch[4].name == NodeParentName;
    batch
  }

  /**
   Writes files.csv, nodes.csv, attributes.csv, nodeAttributes.csv and
   nodeParent.csv in this order, each one only when no file of that name exists.
   The trees must carry the reserved attributes each relation reads.
   */
  function WriteTables(assets: Store<Asset>, trees: Trees, tables: Store<Table>): (r: Store<Table>)
    requires StoreNodesReadable(trees) && StoreAttributesReadable(trees) && StoreParentsReadable(trees)
    ensures |tables| <= |r| && r[..|tables|] == tables
    ensures Names(r) == Names(tables) + CsvNames
    ensures UniqueNames(tables) ==> UniqueNames(r)
    ensures CsvNames <= Names(tables) ==> r == tables
    ensures forall other :: other !in CsvNames ==> Lookup(r, other) == Lookup(tables, other)
  {
    PutAllIfAbsent(tables, Relations(assets, trees))
  }

  /** After phase 3 each CSV file holds what it held before, or else the relation computed from the directories. */
  lemma WriteTablesContents(assets: Store<Asset>, trees: Trees, tables: Store<Table>)
    requires StoreNodesReadable(trees) && StoreAttributesReadable(trees) && StoreParentsReadable(trees)
    ensures Lookup(WriteTables(assets, trees, tables), FilesName) == Kept(tables, FilesName, FilesCsv(FilesTable(assets)))
    ensures Lookup(WriteTables(assets, trees, tables), NodesName) == Kept(tables, NodesName, NodesCsv(NodesTable(trees)))
    ensures Lookup(WriteTables(assets, trees, tables), AttributesName) ==
      Kept(tables, AttributesName, AttributesCsv(AttributesTable(trees)))
    ensures Lookup(WriteTables(assets, trees, tables), NodeAttributesName) ==
      Kept(tables, NodeAttributesName, NodeAttributesCsv(NodeAttributesTable(trees)))
    ensures Lookup(WriteTables(assets, trees, tables), NodeParentName) ==
      Kept(tables, NodeParentName, NodeParentCsv(NodeParentTable(trees)))
  {
    var batch := Relations(assets, trees);
    PutAllIfAbsentContents(tables, batch);
    assert batch[0].name == FilesName && batch[1].name == NodesName && batch[2].name == AttributesName;
    assert batch[3].name == NodeAttributesName && batch[4].name == NodeParentName;
  }

  // ---------------------------------------------------------------------------
  // One run.

  /** The directories after a run, and the asset names whose tree the strict re-parse rejected, in order. */
  datatype Outcome = Outcome(world: World, failed: seq<string>)

  /** Main: download, normalise, then write the relations. */
  function Run(w: World, manifest: seq<ManifestEntry>, env: Env): (r: Outcome)
    requires Persisted(w.trees)
    ensures |w.assets| <= |r.world.assets| && r.world.assets[..|w.assets|] == w.assets
    ensures |w.trees| <= |r.world.trees| && r.world.trees[..|w.trees|] == w.trees
    ensures |w.tables| <= |r.world.tables| && r.world.tables[..|w.tables|] == w.tables
    ensures w.nextId <= r.world.nextId
    ensures Names(r.world.assets) == Names(w.assets) + ManifestIds(manifest)
    ensures Names(r.world.tables) == Names(w.tables) + CsvNames
    ensures Persisted(r.world.trees)
  {
    var assets := Download(w.assets, manifest, env.fetch);
    var n := NormalizeAll(assets, w.trees, w.nextId, env);
    NormalizeAllPersisted(assets, w.trees, w.nextId, env);
    PersistedReadable(n.trees);
    Outcome(World(assets, n.trees, WriteTables(assets, n.trees, w.tables), n.next), n.failed)
  }

  /** A run keeps the invariant of the directories, in particular corpus-wide fresh node ids. */
  lemma RunKeepsValid(w: World, manifest: seq<ManifestEntry>, env: Env)
    requires Valid(w)
    ensures Valid(Run(w, manifest, env).world)
  {
    var assets := Download(w.assets, manifest, env.fetch);
    DownloadNamedById(w.assets, manifest, env.fetch);
    PrefixNames(w.assets, assets);
    NormalizeAllNames(assets, w.trees, w.nextId, env);
    NormalizeAllFresh(assets, w.trees, w.nextId, env);
  }

  /**
   After a run every manifest asset has an asset file, and every asset file has a
   JSON file or is reported as failed. A failed asset has a row in the files
   relation computed from the asset directory, but none in the nodes relation
   computed from the JSON directory. Whether those relations are what the CSV
   files hold is RunWritesFreshTables.
   */
  lemma RunReportsFailures(w: World, manifest: seq<ManifestEntry>, env: Env)
    requires Valid(w)
    ensures var r := Run(w, manifest, env);
      StoreNodesReadable(r.world.trees) &&
      (forall j :: 0 <= j < |r.world.assets| ==> r.world.assets[j].name in Names(r.world.trees) || r.world.assets[j].name in r.failed) &&
      (forall k :: k in r.failed ==>
        k !in Names(w.trees) && k !in Names(r.world.trees) &&
        (exists i :: 0 <= i < |FilesTable(r.world.assets)| && FilesTable(r.world.assets)[i].assetId == k) &&
        (forall i :: 0 <= i < |NodesTable(r.world.trees)| ==> NodesTable(r.world.trees)[i].assetId != k))
  {
    var r := Run(w, manifest, env);
    var assets := Download(w.assets, manifest, env.fetch);
    RunKeepsValid(w, manifest, env);
    PersistedReadable(r.world.trees);
    NormalizeAllCovers(assets, w.trees, w.nextId, env);
    NormalizeAllFailedUnstored(assets, w.trees, w.nextId, env);
    NodesTableAssets(r.world.trees);
    FileRowsNamed(assets);
  }

  /**
   A CSV file that did not exist before the run holds, after it, the relation
   computed from the directories the run left; one that existed keeps its content.
   */
  lemma RunWritesFreshTables(w: World, manifest: seq<ManifestEntry>, env: Env)
    requires Persisted(w.trees)
    ensures var r := Run(w, manifest, env).world;
      StoreNodesReadable(r.trees) &&
      Lookup(r.tables, FilesName) == Kept(w.tables, FilesName, FilesCsv(FilesTable(r.assets))) &&
      Lookup(r.tables, NodesName) == Kept(w.tables, NodesName, NodesCsv(NodesTable(r.trees)))
  {
    var r := Run(w, manifest, env).world;
    var assets := Download(w.assets, manifest, env.fetch);
    var n := NormalizeAll(assets, w.trees, w.nextId, env);
    NormalizeAllPersisted(assets, w.trees, w.nextId, env);
    PersistedReadable(n.trees);
    WriteTablesContents(assets, n.trees, w.tables);
  }

  /** Every asset file named by its id has a files.csv row carrying that id. */
  lemma FileRowsNamed(assets: Store<Asset>)
    requires NamedById(assets)
    ensures forall k :: k in Names(assets) ==> exists i :: 0 <= i < |FilesTable(assets)| && FilesTable(assets)[i].assetId == k
  {
    forall k | k in Names(assets)
      ensures exists i :: 0 <= i < |FilesTable(assets)| && FilesTable(assets)[i].assetId == k
    {
      var i :| 0 <= i < |assets| && assets[i].name == k;
      assert FilesTable(assets)[i].assetId == k;
    }
  }

  /** A download whose every manifest asset already has a file writes nothing. */
  lemma {:induction false} DownloadStable(assets: Store<Asset>, manifest: seq<ManifestEntry>, fetch: (string, string) -> string)
    requires ManifestIds(manifest) <= Names(assets)
    ensures Download(assets, manifest, fetch) == assets
    decreases |manifest|
  {
    if manifest != [] {
      ManifestIdsCons(manifest);
      DownloadStable(assets, manifest[1..], fetch);
    }
  }

  /** With a re-parse that ignores the id values, a rejection for one counter value is a rejection for all. */
  lemma BlindRejected(a: Asset, env: Env)
    requires IdBlind(env) && Rejected(a, env)
    ensures AlwaysRejected(a, env)
  {
    var n: nat :| !env.accepts(Candidate(env.parse(a.content), env.xpath, n).0);
    forall m: nat ensures !env.accepts(Candidate(env.parse(a.content), env.xpath, m).0) {
      assert env.accepts(Candidate(env.parse(a.content), env.xpath, m).0) == env.accepts(Candidate(env.parse(a.content), env.xpath, 0).0);
      assert env.accepts(Candidate(env.parse(a.content), env.xpath, n).0) == env.accepts(Candidate(env.parse(a.content), env.xpath, 0).0);
    }
  }

  /**
   Running again over the same manifest changes no directory: every asset file,
   JSON file and CSV file already exists or is rejected again. Only the id counter
   moves, for the trees the strict re-parse rejects once more.
   */
  lemma SecondRunChangesNothing(w: World, manifest: seq<ManifestEntry>, env: Env)
    requires Valid(w) && IdBlind(env)
    ensures var first := Run(w, manifest, env).world;
      Persisted(first.trees) &&
      var second := Run(first, manifest, env).world;
      second.assets == first.assets && second.trees == first.trees && second.tables == first.tables
  {
    var first := Run(w, manifest, env).world;
    var assets := Download(w.assets, manifest, env.fetch);
    DownloadStable(first.assets, manifest, env.fetch);
    NormalizeAllCovers(assets, w.trees, w.nextId, env);
    forall j | 0 <= j < |assets| && assets[j].name !in Names(first.trees)
      ensures AlwaysRejected(assets[j].content, env)
    {
      BlindRejected(assets[j].content, env);
    }
    NormalizeAllStable(first.assets, first.trees, first.nextId, env);
  }
}

=== FILE: records.dfy ===
/** The record shapes the ingestion reads and writes: manifest rows, downloaded assets and the five CSV row kinds. */
module Records {

  /** One manifest row: which object of which bucket holds the asset. The manifest's FileType column is not read. */
  datatype ManifestEntry = ManifestEntry(assetId: string, bucketName: string, key: string)

  /** A downloaded asset as stored in the asset directory; `content` is the fetched text. */
  datatype Asset = Asset(assetId: string, bucketName: string, key: string, content: string)

  /** A row of files.csv. */
  datatype FileRow = FileRow(assetId: string, fileType: string, bucketName: string, key: string)

  /** A row of nodes.csv. The node id is kept as the text of the GUID it parses from. */
  datatype NodeRow = NodeRow(assetId: string, nodeId: string, name: string, xPath: string, hasText: bool)

  /** A row of attributes.csv: one (name, value) pair of the attribute vocabulary. */
  datatype AttributeRow = AttributeRow(key: string, value: string)

  /** A row of nodeAttributes.csv. */
  datatype NodeAttributeRow = NodeAttributeRow(nodeId: string, attributeName: string, attributeValue: string)

  /** A row of nodeParent.csv. */
  datatype NodeParentRow = NodeParentRow(nodeId: string, parentNodeId: string)
}

=== FILE: scenario.dfy ===
/**
 The end-to-end scenario of a single asset holding the document
 <a><b x="1"/><b x="2"/>text</a>: its normalised tree and the rows each relation
 draws from it.
 */
module Scenario {
  import opened Wrappers
  import opened Markup
  import opened NodeIds
  import opened Normalize
  import opened Records
  import opened Decompose

  /** The document as the tolerant parser hands it over. */
  function Parsed(): seq<Node> {
    [Element("a", map[], [Element("b", map["x" := "1"], []), Element("b", map["x" := "2"], []), Text("text")])]
  }

  /** The normalised tree: the text child is gone, each element carries its id, path and has-text flag. */
  function Expected(xpath: PathOf, next: nat): seq<Node> {
    [Element("a", Stamp(map[], IdText(next), xpath(Parsed(), [0]), true), [
      Element("b", Stamp(map["x" := "1"], IdText(next + 1), xpath(Parsed(), [0, 0]), false), []),
      Element("b", Stamp(map["x" := "2"], IdText(next + 2), xpath(Parsed(), [0, 1]), false), [])])]
  }

  function Children(): seq<Node> {
    Parsed()[0].children
  }

  /** The annotated children of a, before the text child is removed. */
  function StampedChildren(xpath: PathOf, next: nat): seq<Node> {
    Expected(xpath, next)[0].children + [Text("text")]
  }

  /** Nothing of the document is white space only. */
  lemma ScenarioStrip()
    ensures StripBlankText(Parsed()) == Parsed()
  {
    var cs := Children();
    assert !IsBlank("text") by { assert !IsSpace("text"[0]); }
    assert cs[2..] == [Text("text")];
    assert StripBlankText(cs[2..]) == cs[2..];
    assert StripBlankText(cs[1..]) == cs[1..];
    assert StripBlankText(cs) == cs;
  }

  /** The text child is left as it is; the counter does not move. */
  lemma ScenarioAnnotateText(xpath: PathOf, n: nat)
    ensures Annotate([Text("text")], Parsed(), xpath, [0], 2, n) == ([Text("text")], n)
  {
    var f := [Text("text")];
    assert f[1..] == [];
    assert !f[0].Element?;
    var rest := Annotate(f[1..], Parsed(), xpath, [0], 3, n);
    assert rest == ([], n);
    assert Annotate(f, Parsed(), xpath, [0], 2, n) == ([f[0]] + rest.0, rest.1);
    assert [f[0]] + rest.0 == f;
  }

  /** The second b gets id n and the path of position [0, 1]. */
  lemma ScenarioAnnotateSecond(xpath: PathOf, n: nat)
    ensures Annotate([Element("b", map["x" := "2"], []), Text("text")], Parsed(), xpath, [0], 1, n) ==
      ([Element("b", Stamp(map["x" := "2"], IdText(n), xpath(Parsed(), [0, 1]), false), []), Text("text")], n + 1)
  {
    var f := [Element("b", map["x" := "2"], []), Text("text")];
    assert f[1..] == [Text("text")];
    assert [0] + [1] == [0, 1];
    var inner := Annotate([], Parsed(), xpath, [0, 1], 0, n + 1);
    assert inner == ([], n + 1);
    assert !HasTextChild([]);
    ScenarioAnnotateText(xpath, n + 1);
    var b := Element("b", Stamp(map["x" := "2"], IdText(n), xpath(Parsed(), [0, 1]), false), []);
    assert Annotate(f, Parsed(), xpath, [0], 1, n) == ([b] + [Text("text")], n + 1);
    assert [b] + [Text("text")] == [b, Text("text")];
  }

  /** The two b elements get the next ids after a's, their paths, and no text flag. */
  lemma ScenarioAnnotateChildren(xpath: PathOf, next: nat)
    ensures Annotate(Children(), Parsed(), xpath, [0], 0, next + 1) == (StampedChildren(xpath, next), next + 3)
  {
    var f := Children();
    assert f[1..] == [Element("b", map["x" := "2"], []), Text("text")];
    assert [0] + [0] == [0, 0];
    var inner := Annotate([], Parsed(), xpath, [0, 0], 0, next + 2);
    assert inner == ([], next + 2);
    assert !HasTextChild([]);
    ScenarioAnnotateSecond(xpath, next + 2);
    var b1 := Element("b", Stamp(map["x" := "1"], IdText(next + 1), xpath(Parsed(), [0, 0]), false), []);
    var b2 := Element("b", Stamp(map["x" := "2"], IdText(next + 2), xpath(Parsed(), [0, 1]), false), []);
    assert Annotate(f, Parsed(), xpath, [0], 0, next + 1) == ([b1] + [b2, Text("text")], next + 3);
    assert StampedChildren(xpath, next) == [b1] + [b2, Text("text")];
  }

  /** a gets the first id, its path, and the text flag for its child "text". */
  lemma ScenarioAnnotate(xpath: PathOf, next: nat)
    ensures Annotate(Parsed(), Parsed(), xpath, [], 0, next) ==
      ([Element("a", Stamp(map[], IdText(next), xpath(Parsed(), [0]), true), StampedChildren(xpath, next))], next + 3)
  {
    var f := Parsed();
    var cs := Children();
    assert HasTextChild(cs) by { assert cs[2].Text?; }
    assert f[0].children == cs && f[1..] == [];
    assert [] + [0] == [0];
    ScenarioAnnotateChildren(xpath, next);
    var rest := Annotate([], Parsed(), xpath, [], 1, next + 3);
    assert rest == ([], next + 3);
    var a := Element("a", Stamp(map[], IdText(next), xpath(Parsed(), [0]), true), StampedChildren(xpath, next));
    assert Annotate(f, Parsed(), xpath, [], 0, next) == ([a] + [], next + 3);
    assert [a] + [] == [a];
  }

  /** Removing the non-element nodes drops the text child of a and nothing else. */
  lemma ScenarioClean(xpath: PathOf, next: nat)
    ensures Clean(StampedChildren(xpath, next)) == Expected(xpath, next)[0].children
  {
    var kids := StampedChildren(xpath, next);
    var b1 := kids[0];
    var b2 := kids[1];
    assert kids[1..] == [b2, Text("text")] && kids[1..][1..] == [Text("text")] && [Text("text")][1..] == [];
    assert Clean([Text("text")]) == [];
    assert Clean(b2.children) == [] && Clean(b1.children) == [];
    assert Clean([b2, Text("text")]) == [b2];
    assert Clean(kids) == [b1] + [b2];
  }

  /** Normalising the document yields the expected tree, drawing three ids. */
  lemma ScenarioNormalized(xpath: PathOf, next: nat)
    ensures Candidate(Parsed(), xpath, next) == (Expected(xpath, next), next + 3)
  {
    ScenarioStrip();
    ScenarioAnnotate(xpath, next);
    ScenarioClean(xpath, next);
    var e := Expected(xpath, next)[0];
    var a := Element("a", e.attrs, StampedChildren(xpath, next));
    assert [a][1..] == [];
    assert Clean([a]) == [Element("a", e.attrs, Clean(StampedChildren(xpath, next)))] + Clean([]);
    assert Clean([a]) == Expected(xpath, next);
    var annotated := Annotate(Parsed(), Parsed(), xpath, [], 0, next);
    assert annotated == ([a], next + 3);
    assert Candidate(Parsed(), xpath, next) == (Clean(annotated.0), annotated.1);
  }

  /** The elements of the normalised tree in document order: a, then the two b's. */
  lemma ScenarioElements(xpath: PathOf, next: nat)
    ensures Elements(Expected(xpath, next)) == [Expected(xpath, next)[0]] + Expected(xpath, next)[0].children
  {
    var t := Expected(xpath, next);
    var kids := t[0].children;
    assert t[1..] == [] && kids[1..][1..] == [];
    assert Elements(kids[1..]) == [kids[1]];
    assert Elements(kids) == [kids[0]] + [kids[1]];
  }

  /** a has only reserved attributes; each b keeps its one user attribute x. */
  lemma ScenarioUserKeys(xpath: PathOf, next: nat)
    ensures UserKeys(Expected(xpath, next)[0].attrs) == {}
    ensures forall i :: 0 <= i < 2 ==> UserKeys(Expected(xpath, next)[0].children[i].attrs) == {"x"}
    ensures Expected(xpath, next)[0].children[0].attrs["x"] == "1"
    ensures Expected(xpath, next)[0].children[1].attrs["x"] == "2"
  {
    assert IsReserved(NodeIdKey) && IsReserved(XPathKey) && IsReserved(HasTextKey) && !IsReserved("x");
  }

  /**
   nodes.csv gets three rows for the asset k: a with has-text true, and the two
   b's with has-text false, with the ids drawn in document order.
   */
  lemma ScenarioNodes(xpath: PathOf, next: nat, k: string)
    ensures NodesReadable(Expected(xpath, next))
    ensures NodeRows(k, Expected(xpath, next)) == [
      NodeRow(k, IdText(next), "a", xpath(Parsed(), [0]), true),
      NodeRow(k, IdText(next + 1), "b", xpath(Parsed(), [0, 0]), false),
      NodeRow(k, IdText(next + 2), "b", xpath(Parsed(), [0, 1]), false)]
  {
    ScenarioElements(xpath, next);
    assert LowerAscii("True") == "true" && LowerAscii("False") == "false";
  }

  /** nodeParent.csv gets two rows, each b pointing at a. */
  lemma ScenarioParents(xpath: PathOf, next: nat)
    ensures ParentsReadable(Expected(xpath, next), false)
    ensures ParentRows(Expected(xpath, next), None) ==
      [NodeParentRow(IdText(next + 1), IdText(next)), NodeParentRow(IdText(next + 2), IdText(next))]
  {
    var t := Expected(xpath, next);
    var kids := t[0].children;
    var id := IdText(next);
    assert kids[1..][1..] == [] && t[1..] == [];
    assert Roots(kids) == kids by {
      assert Roots(kids[1..]) == [kids[1]];
    }
    assert ParentsReadable(kids, true);
    assert ParentRows(kids[1..], Some(id)) == [NodeParentRow(IdText(next + 2), id)];
    assert ParentRows(kids, Some(id)) == [NodeParentRow(IdText(next + 1), id)] + [NodeParentRow(IdText(next + 2), id)];
  }

  /** The attribute rows of each element: none for a, x=1 for the first b, x=2 for the second. */
  lemma ScenarioElementRows(xpath: PathOf, next: nat)
    ensures AllAttributesReadable(Elements(Expected(xpath, next)))
    ensures ElementAttributeRows(Expected(xpath, next)[0]) == {}
    ensures ElementAttributeRows(Expected(xpath, next)[0].children[0]) == {NodeAttributeRow(IdText(next + 1), "x", "1")}
    ensures ElementAttributeRows(Expected(xpath, next)[0].children[1]) == {NodeAttributeRow(IdText(next + 2), "x", "2")}
  {
    ScenarioElements(xpath, next);
    ScenarioUserKeys(xpath, next);
  }

  /** nodeAttributes.csv gets the rows x=1 and x=2 of the two b's. */
  lemma ScenarioNodeAttributes(xpath: PathOf, next: nat)
    ensures AllAttributesReadable(Elements(Expected(xpath, next)))
    ensures NodeAttributeRows(Elements(Expected(xpath, next))) ==
      multiset{NodeAttributeRow(IdText(next + 1), "x", "1"), NodeAttributeRow(IdText(next + 2), "x", "2")}
  {
    var t := Expected(xpath, next);
    var es := Elements(t);
    ScenarioElements(xpath, next);
    ScenarioElementRows(xpath, next);
    assert es[0] == t[0] && es[1] == t[0].children[0] && es[2] == t[0].children[1];
    assert es[1..][1..][1..] == [];
    assert NodeAttributeRows(es[1..][1..]) == multiset{NodeAttributeRow(IdText(next + 2), "x", "2")};
    assert NodeAttributeRows(es[1..]) == multiset{NodeAttributeRow(IdText(next + 1), "x", "1")} + multiset{NodeAttributeRow(IdText(next + 2), "x", "2")};
  }

  /** attributes.csv gets the two pairs (x, 1) and (x, 2). */
  lemma ScenarioVocabulary(xpath: PathOf, next: nat)
    ensures VocabularyRows(Collect(map[], Elements(Expected(xpath, next)))) == {AttributeRow("x", "1"), AttributeRow("x", "2")}
  {
    var es := Elements(Expected(xpath, next));
    ScenarioNodeAttributes(xpath, next);
    VocabularyIsDedup(es);
    var rows := NodeAttributeRows(es);
    assert PairsOf(rows) == {AttributeRow("x", "1"), AttributeRow("x", "2")} by {
      assert NodeAttributeRow(IdText(next + 1), "x", "1") in rows;
      assert NodeAttributeRow(IdText(next + 2), "x", "2") in rows;
    }
  }
}

=== FILE: stores.dfy ===
/**
 A directory of named outputs, in the order a listing of it returns them. Every
 phase of the ingestion writes an output only when no output of that name exists,
 so a directory only ever grows at its end and never has an entry replaced.
 */
module Stores {
  import opened Wrappers

  datatype Entry<T> = Entry(name: string, content: T)

  type Store<T> = seq<Entry<T>>

  function Names<T>(s: Store<T>): set<string> {
    set i | 0 <= i < |s| :: s[i].name
  }

  /** No two entries share a name, as in a file system directory. */
  predicate UniqueNames<T>(s: Store<T>) {
    forall i, j :: 0 <= i < j < |s| ==> s[i].name != s[j].name
  }

  /** The content stored under a name, if any. */
  function Lookup<T>(s: Store<T>, name: string): (r: Option<T>)
    ensures r.Some? <==> name in Names(s)
    ensures UniqueNames(s) ==> forall i :: 0 <= i < |s| && s[i].name == name ==> r == Some(s[i].content)
  {
    if s == [] then None
    else if s[0].name == name then Some(s[0].content)
    else
      var r := Lookup(s[1..], name);
      assert Names(s) == {s[0].name} + Names(s[1..]) by {
        forall x | x in Names(s) ensures x in {s[0].name} + Names(s[1..]) {
          var i :| 0 <= i < |s| && s[i].name == x;
          if i > 0 { assert s[1..][i - 1].name == x; }
        }
      }
      r
  }

  /**
   The skip-if-exists write: stores `content` under `name` when nothing is stored
   under it yet, and otherwise leaves the store alone. The flag says whether it wrote.
   */
  function PutIfAbsent<T>(s: Store<T>, name: string, content: T): (r: (Store<T>, bool))
    ensures r.1 <==> name !in Names(s)
    ensures !r.1 ==> r.0 == s
    ensures |s| <= |r.0| && r.0[..|s|] == s
    ensures Names(r.0) == Names(s) + {name}
    ensures Lookup(r.0, name) == (if name in Names(s) then Lookup(s, name) else Some(content))
    ensures forall other :: other != name ==> Lookup(r.0, other) == Lookup(s, other)
    ensures UniqueNames(s) ==> UniqueNames(r.0)
  {
    if name in Names(s) then (s, false)
    else
      var s' := s + [Entry(name, content)];
      LookupAppend(s, Entry(name, content));
      assert s'[..|s|] == s;
      (s', true)
  }

  /** Appending an entry under a new name changes only what that name looks up to. */
  lemma {:induction false} LookupAppend<T>(s: Store<T>, e: Entry<T>)
    requires e.name !in Names(s)
    ensures Names(s + [e]) == Names(s) + {e.name}
    ensures Lookup(s + [e], e.name) == Some(e.content)
    ensures forall other :: other != e.name ==> Lookup(s + [e], other) == Lookup(s, other)
    decreases |s|
  {
    var t := s + [e];
    assert t[|s|] == e;
    forall x | x in Names(t) ensures x in Names(s) + {e.name} {
      var i :| 0 <= i < |t| && t[i].name == x;
      if i < |s| { assert s[i].name == x; }
    }
    forall x | x in Names(s) + {e.name} ensures x in Names(t) {
      if x in Names(s) {
        var i :| 0 <= i < |s| && s[i].name == x;
        assert t[i].name == x;
      }
    }
    if s != [] {
      assert s[0].name in Names(s);
      assert t[1..] == s[1..] + [e];
      assert Names(s[1..]) <= Names(s) by {
        forall x | x in Names(s[1..]) ensures x in Names(s) {
          var i :| 0 <= i < |s[1..]| && s[1..][i].name == x;
          assert s[i + 1].name == x;
        }
      }
      LookupAppend(s[1..], e);
    }
  }

  /** What a name looks up to after a skip-if-exists write of `content`: what it held already, if anything. */
  function Kept<T>(s: Store<T>, name: string, content: T): Option<T> {
    if name in Names(s) then Lookup(s, name) else Some(content)
  }

  /** Skip-if-exists writes of the entries of `batch`, one after another. */
  function PutAllIfAbsent<T>(s: Store<T>, batch: seq<Entry<T>>): (r: Store<T>)
    ensures |s| <= |r| && r[..|s|] == s
    ensures Names(r) == Names(s) + Names(batch)
    ensures UniqueNames(s) ==> UniqueNames(r)
    ensures Names(batch) <= Names(s) ==> r == s
    ensures forall other :: other !in Names(batch) ==> Lookup(r, other) == Lookup(s, other)
    decreases |batch|
  {
    if batch == [] then s
    else
      var t := PutIfAbsent(s, batch[0].name, batch[0].content).0;
      assert Names(batch) == {batch[0].name} + Names(batch[1..]) by {
        forall x | x in Names(batch) ensures x in {batch[0].name} + Names(batch[1..]) {
          var j :| 0 <= j < |batch| && batch[j].name == x;
          if j > 0 { assert batch[1..][j - 1].name == x; }
        }
      }
      var r := PutAllIfAbsent(t, batch[1..]);
      assert r[..|s|] == r[..|t|][..|s|];
      r
  }

  /** With distinct names in the batch, each of its names ends up holding what it held already, or its batch content. */
  lemma {:induction false} PutAllIfAbsentContents<T>(s: Store<T>, batch: seq<Entry<T>>)
    requires UniqueNames(batch)
    ensures forall i :: 0 <= i < |batch| ==>
      Lookup(PutAllIfAbsent(s, batch), batch[i].name) == Kept(s, batch[i].name, batch[i].content)
    decreases |batch|
  {
    if batch != [] {
      var t := PutIfAbsent(s, batch[0].name, batch[0].content).0;
      var rest := batch[1..];
      assert UniqueNames(rest) by {
        forall i, j | 0 <= i < j < |rest| ensures rest[i].name != rest[j].name {
          assert rest[i] == batch[i + 1] && rest[j] == batch[j + 1];
        }
      }
      PutAllIfAbsentContents(t, rest);
      assert batch[0].name !in Names(rest) by {
        forall j | 0 <= j < |rest| ensures rest[j].name != batch[0].name {
          assert rest[j] == batch[j + 1];
        }
      }
      forall i | 0 <= i < |batch|
        ensures Lookup(PutAllIfAbsent(s, batch), batch[i].name) == Kept(s, batch[i].name, batch[i].content)
      {
        if i > 0 {
          assert batch[i] == rest[i - 1];
          assert batch[i].name != batch[0].name;
        }
      }
    }
  }
}

=== FILE: wrappers.dfy ===
/** Optional values, used where the ingestion code reads something that may be absent. */
module Wrappers {

  datatype Option<+T> = None | Some(value: T)

}
